=== FILE: README.md ===
# quanto-magis core in Dafny

This project models the data-processing core of quanto-magis, a small Spark-like library written in Go. It has four parts:

- **RDD** (`internal/rdd/rdd.go`): an immutable sequence with parallel `Map`, `Filter`, `FlatArray` (one-level flattening) and `FlatMap`. Each transformation runs on a pool of goroutines and a collector.
- **DataFrame** (`internal/dataframe/dataframe.go`): named columns ("series") of dynamically typed values. It covers validated construction, first-match column lookup, `Select`, `Distinct` and `NewFromRDD`.
- **GroupBy** (`internal/dataframe/groupby.go`): groups one column's values by themselves. `Agg` registers reducers, and `Show` emits one `(key, reducer(group))` row per key and per reducer. `Count` and `Sum` are the two reducers provided.
- **CSV loading** (`internal/io/csv.go`): the header row names the columns. Each later row adds one value to every column. A cell becomes a float when it parses as one and stays a string otherwise.

Modules, one per file:

- `Values` (values.dfy): the tagged `Value` that stands in for Go's `interface{}`, Go map-key hashability, the error sentinels, `Result`/`Option`, the cancellation `Context`, `strings.TrimSpace`, and 64-bit wrap-around.
- `Sequences` (sequences.dfy): concatenation, expansion, permutations and the multiset laws of fan-in.
- `Scheduler` (scheduler.dfy): worker-pool sizing, the chunk partition, per-worker batches and the collector.
- `Rdd` (rdd.dfy), `DataFrame` (dataframe.dfy), `Grouping` (groupby.dfy) and `Csv` (csv.dfy).

How the model handles what Dafny cannot express directly:

- **Concurrency.** What goroutine scheduling decides becomes a parameter:
  - `cpus` is `runtime.NumCPU()`;
  - a `Schedule` records which worker took which job and the order in which worker batches reached the collector;
  - `Map`'s `arrival` is the order in which indexed results came back.

  Every contract holds for every such schedule. So `Map` preserves order for all arrival orders, and `Filter`, `FlatArray` and `FlatMap` are characterised as multisets. `FlatArray` is also stated exactly: its result is the chunk outputs appended in arrival order. For `Filter` and `FlatMap` this holds when the call sees no cancellation; how those two can end after one is described under "## Findings".
- **Cancellation.** A `Context` records two things: whether the context is done when the call checks it on entry, and whether a cancellation is seen at one of the call's checkpoints while it works. A call with no work passes no checkpoint after entry. `Map`, `FlatArray` and `Distinct` always fail once they see a cancellation. `Filter` and `FlatMap` may instead succeed with a partial result: a `QueueRun` records how many jobs were sent before the queue was closed and whether the error won, and `FilterAsWritten` and `FlatMapAsWritten` model that.
- **Go map iteration order.** The order of `Show`'s rows is a parameter: any order listing every key once. `Distinct`'s order is a parameter of the same kind: any listing of the series' values. The first-occurrence order `Dedup` computes shows that such a listing always exists; it is not claimed to be the order Go produces.
- **Panics.** A Go runtime panic is modelled as a precondition: an index past the end, or a slice used as a map key.

Where the code and its documentation disagree, the model follows the code:

- `GroupBy`'s comment promises `ErrInvalidColumnName` for an empty name, but the code never checks for it. A blank name falls through to `ErrColumnNotFound`.
- `Agg` appends to the receiver in place and returns it. The model returns the extended value, so the aliasing is not represented.
- The text of `internal/io/csv.go` holds a stray, incomplete copy of `ReadCSV` (lines 29-53) spliced into the real one. The model follows the coherent function: lines 24-28, then lines 55-85.
- The comments on `FlatArray` and `FlatMap` (`internal/rdd/rdd.go:218-220` and `302`) say that every array or slice element has its members extracted. The code splices only a `[]T` (`[]interface{}` here). An array, or a slice of another element type, passes through whole (`rdd.go:269-274` and `349-359`). `Rdd.Spread` follows the code.

## Model

| member | source | states |
|---|---|---|
| Values.TrimSpaceEmptyIffBlank | internal/dataframe/dataframe.go:66 | `strings.TrimSpace(s) == ""` holds exactly when every character of `s` is Unicode white space; this is the blank-name test used by `New` and `Select` |
| Values.TrimSpace | internal/dataframe/dataframe.go:66 | the trimmed string is no longer than the input and neither starts nor ends with white space |
| Values.Wrap64 | internal/dataframe/groupby.go:105-112 | the result lies in Go's 64-bit `int` range, equals the input when the input fits, and differs from it by a multiple of 2^64 |
| Values.WrapAddAbsorbs | internal/dataframe/groupby.go:107-111 | wrapping after every addition gives the same result as wrapping once at the end |
| Sequences.GatherPermuted | internal/rdd/rdd.go:200-212 | batches appended in any permutation of the workers hold, as a multiset, exactly the elements of all batches |
| Sequences.ExpandPrefix | internal/rdd/rdd.go:188-194 | expanding only the jobs sent before the queue closed yields a sub-multiset of expanding them all |
| Sequences.NoDupOnce | internal/dataframe/dataframe.go:168-182 | a sequence without repeats, such as a map's key listing, holds each of its elements exactly once |
| Sequences.SameElementsPermuted | internal/dataframe/dataframe.go:177-180 | two listings without repeats of the same values are permutations of each other |
| Sequences.BlockIndex | internal/dataframe/groupby.go:81-93 | laying equal-width blocks end to end gives length blocks × width, and cell `j` of block `p` lands at position `p * width + j` |
| Scheduler.Workers | internal/rdd/rdd.go:234-239 | the pool size is `min(NumCPU, size)`, and for a non-empty input it lies between 1 and `size` |
| Scheduler.ChunkSize | internal/rdd/rdd.go:235-238 | the chunk length is at least 1 |
| Scheduler.ChunksFit | internal/rdd/rdd.go:234-250 | the full-length chunks of all workers fit inside the input |
| Scheduler.ChunksPartition | internal/rdd/rdd.go:244-250 | the chunks are non-empty, contiguous and increasing, start at 0 and end at `size`, so they are disjoint and cover the input |
| Scheduler.ChunkOfContains | internal/rdd/rdd.go:244-250 | every input index lies in the chunk of some worker |
| Scheduler.ChunkOfUnique | internal/rdd/rdd.go:244-250 | no input index lies in two chunks |
| Scheduler.ChunkOutputs | internal/rdd/rdd.go:244-281 | one output per worker; worker `k`'s output is the flattening of its own chunk `[k * chunkSize, end)`, which lies inside the input |
| Scheduler.ChunkOutputsInOrder | internal/rdd/rdd.go:252-284 | the chunk workers' outputs, concatenated in chunk order, are exactly the sequential flattening of the whole input |
| Scheduler.Batch | internal/rdd/rdd.go:172-181 | the jobs one queue worker dequeued, in queue order; it never holds a value more often than the input does |
| Scheduler.WorkerOutputs | internal/rdd/rdd.go:164-185 | one batch per queue worker, each built by appending the worker's output for every job it takes; `WorkerKeepsQueueOrder` and `WorkerOutputsCover` state their contents |
| Scheduler.WorkerKeepsQueueOrder | internal/rdd/rdd.go:164-185 | each queue worker's batch is the expansion of the jobs it dequeued, in queue order |
| Scheduler.WorkerOutputsCover | internal/rdd/rdd.go:164-185 | however the jobs are spread over the workers, all batches together hold the multiset of the sequential expansion |
| Scheduler.Gather | internal/rdd/rdd.go:200-212 | the collector's output has the multiset of all worker batches, for every arrival order |
| Rdd.New | internal/rdd/rdd.go:22-31 | the stored copy collects back to exactly the given data, and the size is its length |
| Rdd.Collect | internal/rdd/rdd.go:35-39 | the returned copy has `Size` elements |
| Rdd.Size | internal/rdd/rdd.go:42-44 | the recorded size is the number of stored elements |
| Rdd.Spread | internal/rdd/rdd.go:264-277 | a `[]interface{}` element contributes its members; any other element, arrays and other slice types included, is kept whole, and kept whole exactly when it is not a `[]interface{}` |
| Rdd.SpreadApply | internal/rdd/rdd.go:345-364 | a `FlatMap` worker applies `fn` to each member of a `[]interface{}` job, in order, and to any other job whole, giving one result |
| Rdd.Map | internal/rdd/rdd.go:52-135 | a context done on entry gives the context error; an empty input gives an empty RDD; a cancellation seen during work gives the context error; otherwise the result has the input's size and holds `fn(input[i])` at every index `i`, for every arrival order of results |
| Rdd.Filter | internal/rdd/rdd.go:142-216 | the corrected call (see "## Findings"): the same error cases as `Map`; on success, each value occurs in the result as often as in the input when the predicate holds for it, and not at all otherwise, for every schedule |
| Rdd.KeepCounts | internal/rdd/rdd.go:178-181 | the sequential filter keeps every occurrence of a satisfying value and none of any other |
| Rdd.FlatArray | internal/rdd/rdd.go:224-300 | the same error cases as `Map`; on success, the result is the chunk workers' outputs appended in their arrival order, and so a permutation of the one-level flattening, in which a `[]interface{}` element contributes its members and every other element stays whole |
| Rdd.FlatArrayInChunkOrder | internal/rdd/rdd.go:224-300 | when the chunks report in chunk order, `FlatArray` returns exactly the sequential flattening |
| Rdd.FlatArraySingleWorker | internal/rdd/rdd.go:234-250 | with one CPU there is one chunk, so `FlatArray` returns exactly the sequential flattening under every schedule |
| Rdd.FlatMap | internal/rdd/rdd.go:307-399 | the corrected call (see "## Findings"): the same error cases as `Map`; on success, the result is a permutation of `fn` mapped over the one-level flattening |
| Rdd.FilterAsWritten | internal/rdd/rdd.go:142-216 | `Filter` as the code runs it: a context done on entry or an error that wins gives the context error, and an empty input gives an empty RDD; a success holds each satisfying value as often as it occurs among the jobs sent before the queue closed, and never more often than in the whole input |
| Rdd.FilterAsWrittenAgrees | internal/rdd/rdd.go:142-216 | when no cancellation arrives during the call, every job is sent and the code's `Filter` returns what `Rdd.Filter` returns |
| Rdd.FilterPartialSuccess | internal/rdd/rdd.go:188-215 | filtering `[1, 2]` with a predicate that keeps everything, on one CPU, with the cancellation arriving after one job is sent and the collector taking the batch, returns `Ok([1])`, where `Rdd.Filter` returns the context error |
| Rdd.FlatMapAsWritten | internal/rdd/rdd.go:307-399 | `FlatMap` as the code runs it: the same error cases as `FilterAsWritten`; a success is a permutation of `fn` mapped over the flattening of the jobs sent before the queue closed, and within the multiset of the full result |
| Rdd.FlatMapAsWrittenAgrees | internal/rdd/rdd.go:307-399 | when no cancellation arrives during the call, the code's `FlatMap` returns what `Rdd.FlatMap` returns |
| Rdd.FlatMapPartialSuccess | internal/rdd/rdd.go:370-398 | flat-mapping `[1, 2]` with the identity, on one CPU, with the queue closed after one job and the collector taking the batch, returns `Ok([1])`, where `Rdd.FlatMap` returns the context error |
| Rdd.FlattenWithoutLists | internal/rdd/rdd.go:264-278 | an input without `[]interface{}` elements flattens to itself |
| Rdd.FlattenPair | internal/rdd/rdd.go:255-278 | a two-element input flattens to the spliced form of the first followed by that of the second |
| Rdd.FlattenTwoLists | internal/rdd/rdd_test.go:207-214 | `[[1,2,3,4,5],[6,7,8,9,10]]` flattens to `[1,…,10]` |
| Rdd.FlattenMixed | internal/rdd/rdd_test.go:215-222 | in `[[1,2],3,[4,5]]` the scalar passes through between the spliced members, giving `[1,2,3,4,5]` |
| DataFrame.New | internal/dataframe/dataframe.go:46-93 | empty data succeeds with the names kept and no series; otherwise the errors come in the source's order (no names, count mismatch, blank name, non-slice column), success holds exactly when none applies, and on success each series copies its column, the names are kept, and the size counts all cells |
| DataFrame.NewConsistent | internal/dataframe/dataframe.go:46-53 | corrected `New`: every result has one series per name, and on non-empty data or no names it agrees with `New` |
| DataFrame.EmptyNewSelectOutOfRange | internal/dataframe/dataframe.go:47-53 | `New([], ["a"])` succeeds and reports column "a", but has no series for it; the corrected constructor selects "a" as an empty series |
| DataFrame.IndexFrom | internal/dataframe/dataframe.go:120-125 | the scan returns the first position at or after the start that holds the name, or -1 exactly when there is none |
| DataFrame.GetColumnIndex | internal/dataframe/dataframe.go:119-126 | fails with `ErrColumnNotFound` exactly when the name is absent; otherwise it returns the first position holding the name |
| DataFrame.HasColumn | internal/dataframe/dataframe.go:129-136 | true exactly when the index lookup succeeds |
| DataFrame.ConsistentSeriesPresent | internal/dataframe/dataframe.go:110 | in a frame with one series per name, every name the lookup finds has a series |
| DataFrame.Select | internal/dataframe/dataframe.go:99-115 | a blank name gives `ErrInvalidColumnName`, an absent name gives `ErrColumnNotFound`, and otherwise the result is the series of the first column with that name |
| DataFrame.Columns | internal/dataframe/dataframe.go:139-143 | the returned names are exactly the names `HasColumn` finds |
| DataFrame.SizeCountsCells | internal/dataframe/dataframe.go:145-148 | `Size` of a frame built by `New` is the number of cells over all series, so no series' `Count` exceeds it |
| DataFrame.DistinctCount | internal/dataframe/dataframe.go:187-190 | `Count` of a successful `Distinct` lies between 1 and the series' `Count`, and equals it exactly when the series holds no value twice |
| DataFrame.NumColumns | internal/dataframe/dataframe.go:151-153 | equals the number of names `Columns` returns |
| DataFrame.NewThenSelect | internal/dataframe/dataframe.go:74-86 | selecting the first column with a given name in a frame built by `New` returns exactly the data passed for that column, with the same `Count` |
| DataFrame.NewFromRDD | internal/dataframe/dataframe.go:29-39 | the frame has the single column "value", its size is the RDD's size, and selecting "value" returns the collected elements |
| DataFrame.Dedup | internal/dataframe/dataframe.go:168-182 | a listing of the series' values, each once, exists for every series: the result holds no value twice and holds exactly the values of the input |
| DataFrame.DedupIsListing | internal/dataframe/dataframe.go:159-185 | the first-occurrence listing satisfies `Distinct`'s order requirement, and with it `Distinct` succeeds on every non-empty hashable series that sees no cancellation |
| DataFrame.DistinctOrderIrrelevant | internal/dataframe/dataframe.go:168-182 | whatever order the map iteration takes, `Distinct` succeeds or fails alike, and any two successful results are permutations of each other |
| DataFrame.Distinct | internal/dataframe/dataframe.go:159-185 | a context done on entry gives the context error; an empty series gives `ErrEmptyDataFrame`; a cancellation seen during the scan gives the context error; otherwise every distinct value appears exactly once, in the map-iteration order given as a parameter |
| Grouping.CopiesMultiset | internal/dataframe/groupby.go:46 | appending a value to its own group once per occurrence yields a group holding that value exactly as often as it occurs, and nothing else |
| Grouping.Bucket | internal/dataframe/groupby.go:38-47 | the keys are exactly the column's values, and each key's group holds that key as many times as it occurs in the column |
| Grouping.GroupBy | internal/dataframe/groupby.go:21-54 | a context done on entry gives the context error; an absent column gives `ErrColumnNotFound`; a cancellation seen while scanning a non-empty column gives the context error; only these two errors occur; when no cancellation is seen and the column exists, the grouping keeps the frame and the name, has no reducers, and has one group per distinct value holding all its occurrences |
| Grouping.CopiesForCover | internal/dataframe/groupby.go:38-47 | listing every distinct value once, with all its copies, gives back the multiset |
| Grouping.KeyOrderLength | internal/dataframe/groupby.go:81 | an iteration that visits every key once makes exactly one step per group |
| Grouping.GroupsPartition | internal/dataframe/groupby.go:38-47 | taken in any key order, the groups together hold the column's values with their multiplicities, their lengths add up to the column length, and there are as many groups as distinct values |
| Grouping.Agg | internal/dataframe/groupby.go:59-62 | the new reducer follows the registered ones, and the frame, name and groups are unchanged |
| Grouping.ShowKeys | internal/dataframe/groupby.go:89-92 | the key column repeats the key of the `p`-th group once per reducer, at rows `p * |aggs| + j` |
| Grouping.ShowValues | internal/dataframe/groupby.go:89-92 | at row `p * |aggs| + j`, the value column holds reducer `j` applied to the group of the `p`-th key |
| Grouping.Show | internal/dataframe/groupby.go:68-96 | a context done on entry gives the context error; no reducers gives `ErrInvalidData`; a cancellation seen during the walk gives the context error; a blank grouping name gives `ErrInvalidColumnName`; otherwise the frame has columns `[name, "count"]`, `|groups| × |aggs|` rows and size twice that (it counts cells), and row `p * |aggs| + j` pairs the `p`-th key with reducer `j` of its group |
| Grouping.ShowColumnsBlank | internal/dataframe/groupby.go:95 | `Show`'s column names contain a blank one exactly when the grouping name is blank |
| Grouping.Sum | internal/dataframe/groupby.go:105-113 | the running total always stays inside Go's 64-bit `int` range |
| Grouping.SumIsWrappedTotal | internal/dataframe/groupby.go:105-113 | the result is the 64-bit wrap of the exact sum of the group's `int` members, with every other value skipped |
| Grouping.SumSkipsNonInts | internal/dataframe/groupby.go:107-111 | a group without `int` members sums to 0 |
| Grouping.CountReportsOccurrences | internal/dataframe/groupby.go:99-101 | `Count` of a value's group is the number of times the value occurs in the column |
| Grouping.SumExamples | internal/dataframe/groupby_test.go:227-256 | `[1,2,3,4,5]` sums to 15, `[1,"string",2,3]` to 6, and the empty group sums and counts to 0 |
| Grouping.ExampleBucket | internal/dataframe/groupby_test.go:108-123 | bucketing `["A","B","A"]` gives exactly the keys "A" and "B", with groups `[A, A]` and `[B]` |
| Grouping.ExampleGroups | internal/dataframe/groupby_test.go:108-123 | grouping the "category" column `["A","B","A"]` of the test frame succeeds, keeps the name, has no reducers yet, and its groups are the bucketing of that column |
| Grouping.ExampleCounts | internal/dataframe/groupby_test.go:111-117 | the test column holds "A" twice and "B" once, and nothing else |
| Grouping.GroupKeysAreListings | internal/dataframe/groupby.go:37-47 | after a successful `GroupBy`, an order is a valid key order for `Show` exactly when it lists the grouping column's values once each, which is what `Distinct` returns; the first-occurrence order is one |
| Grouping.ExampleFrameFromNew | internal/dataframe/groupby_test.go:111-117 | `New` builds the example frame from the test's data `[["A","B","A"], [1,2,3]]` with columns "category" and "value" |
| Grouping.TestFrameFromNew | internal/dataframe/groupby_test.go:20-28 | `New` builds the test frame from `[["A","B","A","C","B"], [1,2,3,4,5]]` with columns "col1" and "col2" |
| Grouping.BucketKeys | internal/dataframe/groupby.go:37-47 | the keys of the grouping are exactly the column's values, so there are as many groups as distinct values |
| Grouping.TestBucketKeys | internal/dataframe/groupby_test.go:23-32 | the test column `["A","B","A","C","B"]` has exactly the keys "A", "B" and "C" |
| Grouping.ThreeGroups | internal/dataframe/groupby_test.go:18-33 | grouping the test frame by "col1" succeeds with three groups |
| Grouping.CountShape | internal/dataframe/groupby_test.go:108-134 | for the groups `A: [A, A]` and `B: [B]`, with `Count` registered, `Show` gives two rows, pairing "A" with 2 and "B" with 1 in either key order |
| Grouping.CountSumShape | internal/dataframe/groupby_test.go:126-134 | for the same groups, with `Count` and `Sum` registered, `Show` gives four rows |
| Csv.CreateColumns | internal/io/csv.go:87-107 | fails with the inconsistent-columns error exactly when some record's width differs from the header's; otherwise there is one column per name and one entry per record, and column `c`, row `k` is field `c` of record `k`, converted to a float when it parses and kept as a string otherwise |
| Csv.ReadCsv | internal/io/csv.go:55-85 | fewer than two records gives the missing-data-rows error and a ragged record gives the inconsistent-columns error; an empty header gives an empty frame and a blank header name gives `ErrInvalidColumnName`; otherwise the columns are the header, the size is width × data rows, and series `c`, row `k - 1` is the converted field `c` of record `k` |

## Left out

- Goroutines, channels, `select` and the collector's locking are not modelled. Their nondeterminism enters as the `cpus`, `Schedule` and `arrival` parameters. Freedom from data races is not a property of the sequential model.
- `runtime.NumCPU()` is the parameter `cpus`, assumed to be at least 1, as the Go runtime guarantees.
- A Go context is modelled by what a call observes of it (`Context`). `context.DeadlineExceeded` and `context.Canceled` are not distinguished: both are the error `Canceled`.
- The error messages and the `fmt.Errorf` wrapping are not modelled. A wrapped error is identified with the sentinel it wraps, as `errors.Is` sees it.
- `reflect` is replaced by the tags of `Value`. A nil element, on which `reflect.TypeOf(nil).Kind()` panics in `FlatArray` and `FlatMap`, has no `Value` and is not modelled.
- Values.TrimSpace: states no exact characterisation of the trimmed string beyond its length bound and its non-blank ends. Only the blank test `TrimSpace(s) == ""` matters to the core, and `Values.TrimSpaceEmptyIffBlank` states that in full.
- Go's `==` on interface values is modelled as structural equality on `Value`. Float `NaN` keys, which never compare equal in a Go map, and the rounding of `strconv.ParseFloat` are not modelled. `ParseFloat` itself is the parameter `parse` of `Csv.CreateColumns` and `Csv.ReadCsv`.
- Integers are unbounded except in `Sum`, which wraps at 64 bits as Go's `int` does. `Count` and the sizes cannot reach 2^63 in practice.
- `Map`'s chunk-size computation (`internal/rdd/rdd.go:62-66`) only sizes its pool. Results are placed by index, so it leaves no trace in the result and is not modelled separately.
- `String()` on `RDD`, `DataFrame` and `Series` only formats text and is not modelled.
- In `ReadCSV`, opening, reading and closing the file, and `encoding/csv`'s own parsing (quoting, its ragged-row check), are I/O. The model starts from the parsed records, and the constructor `NewReader` has no behaviour.
- `Series.Distinct`'s `key` parameter is ignored by the code and is not modelled.
- DataFrame.New: Go stores the caller's `columns` slice itself (`dataframe.go:51` and `91`); only the series are copied. A caller that later edits that slice renames the frame's columns, even to a blank name `New` would reject. Dafny sequences are values, so this aliasing is not modelled.
- Grouping.Agg: the Go method mutates the receiver in place. The model returns a new value, so two handles to one grouping seeing each other's reducers is not modelled.
- Values.Value: a CSV cell parsed by `strconv.ParseFloat` can be ±Inf or NaN (the cell "NaN", say); a Dafny `real` holds neither, so non-finite floats are not modelled, nor NaN's inequality to itself as a map key in `GroupBy` and `Distinct`.
- The session, CLI, `pkg/quanto` and `quantoCore` packages are callers of the core and are not part of this model.

## Findings

| source | as written | input that shows it | evidently intended | confidence | as-written member | corrected member |
|---|---|---|---|---|---|---|
| internal/dataframe/dataframe.go:47-53 | `New` with empty `data` keeps the given column names but stores no series | `New([]interface{}{}, []string{"a"})` succeeds and `HasColumn("a")` is true, but `Select("a")` and `GroupBy(ctx, "a")` index `df.series[0]` of an empty slice and panic | every stored name has a series, so a frame built from no data behaves as a frame of empty columns | not executed | DataFrame.EmptyNewSelectOutOfRange | DataFrame.NewConsistent |
| internal/rdd/rdd.go:188-215 | on a cancellation the job sender closes the queue early, the workers drain it and report their batches, and the collector may take those batches rather than `ctx.Done()`, so `Filter` returns `New(partial), nil` | `Filter` of `[1, 2]` with an always-true predicate on one CPU, where the cancellation arrives after the first send and the worker's batch wins the collector's `select`: the result is `[1]` with no error | a cancelled call returns `ctx.Err()`, as the doc comment says, never a partial RDD | not executed | Rdd.FilterPartialSuccess | Rdd.Filter |
| internal/rdd/rdd.go:370-398 | the same early close and collector race in `FlatMap` | `FlatMap` of `[1, 2]` with the identity on one CPU, cancelled after the first send: the result is `[1]` with no error | a cancelled call returns `ctx.Err()`, never a partial RDD | not executed | Rdd.FlatMapPartialSuccess | Rdd.FlatMap |

`DataFrame.New` models the code as written. `DataFrame.EmptyNewSelectOutOfRange` exhibits the failing input. `DataFrame.NewConsistent` is the corrected constructor, and `Grouping.Show` and `Csv.ReadCsv` build their frames with it. Its third postcondition shows that it agrees with `New` on every input those two callers can pass.

`Rdd.FilterAsWritten` and `Rdd.FlatMapAsWritten` model the two queue-based calls as written, including the partial success. `Rdd.FilterPartialSuccess` and `Rdd.FlatMapPartialSuccess` exhibit the input. `Rdd.Filter` and `Rdd.FlatMap` are the corrected calls: any cancellation seen mid-call gives the context error. `Rdd.FilterAsWrittenAgrees` and `Rdd.FlatMapAsWrittenAgrees` show that the two versions agree whenever no cancellation arrives during the call. `Map` and `FlatArray` cannot end this way. `Map`'s collector returns only after receiving all `size` indexed results, and a sender that closes the queue early leaves too few of them, so it can only end with an error (`rdd.go:108-132`). A `FlatArray` worker that sees the cancellation returns without sending its batch, so the collector never reaches `numWorkers` batches and also ends with an error (`rdd.go:257-260`, `284-297`).

=== FILE: csv.dfy ===
/** The CSV loader of internal/io/csv.go, after the file has been read into
    records: the first record names the columns, every later record is a
    row, and each cell becomes a float when it parses as one and stays a
    string otherwise. */
module Csv {
  import opened Values
  import opened Sequences
  import DF = DataFrame

  /** One cell: `parse` stands for `strconv.ParseFloat(s, 64)`, `None` for
      a parse error. */
  function Cell(s: string, parse: string -> Option<real>): (v: Value)
  {
    match parse(s)
    case Some(x) => NumV(x)
    case None => StrV(s)
  }

  /** Every record has exactly one field per column name. */
  predicate Rectangular(width: nat, records: seq<seq<string>>)
  {
    forall k | 0 <= k < |records| :: |records[k]| == width
  }

  /** `createColumns`: fails with the inconsistent-columns error as soon as a
      record's width differs from the header's; otherwise column `c` lists,
      row by row, the converted field `c` of every record. */
  method CreateColumns(names: seq<string>, records: seq<seq<string>>, parse: string -> Option<real>)
    returns (r: Result<seq<seq<Value>>>)
    ensures r.Err? <==> !Rectangular(|names|, records)
    ensures r.Err? ==> r.error == InconsistentColumns
    ensures r.Ok? ==> |r.value| == |names|
    ensures r.Ok? ==> forall c | 0 <= c < |names| :: |r.value[c]| == |records|
    ensures r.Ok? ==> forall c, k | 0 <= c < |names| && 0 <= k < |records| ::
      r.value[c][k] == Cell(records[k][c], parse)
  {
    var width := |names|;
    var columns: seq<seq<Value>> := seq(width, _ => []);
    var k := 0;
    while k < |records|
      invariant 0 <= k <= |records|
      invariant Rectangular(width, records[..k])
      invariant |columns| == width
      invariant forall c | 0 <= c < width :: |columns[c]| == k
      invariant forall c, k' | 0 <= c < width && 0 <= k' < k :: columns[c][k'] == Cell(records[k'][c], parse)
    {
      var record := records[k];
      if |record| != width {
        return Err(InconsistentColumns);
      }
      var idx := 0;
      while idx < |record|
        invariant 0 <= idx <= width
        invariant |columns| == width
        invariant forall c | 0 <= c < idx :: |columns[c]| == k + 1 && columns[c][k] == Cell(record[c], parse)
        invariant forall c | idx <= c < width :: |columns[c]| == k
        invariant forall c, k' | 0 <= c < width && 0 <= k' < k :: columns[c][k'] == Cell(records[k'][c], parse)
      {
        columns := columns[idx := columns[idx] + [Cell(record[idx], parse)]];
        idx := idx + 1;
      }
      assert records[..k + 1] == records[..k] + [record];
      k := k + 1;
    }
    assert records[..k] == records;
    return Ok(columns);
  }

  /** `ReadCSV` from the records on: fewer than two records is the
      missing-data-rows error; then the header and the data rows go through
      `createColumns` and the columns, each as a `[]interface{}`, through the
      frame constructor with the header as names. */
  method ReadCsv(records: seq<seq<string>>, parse: string -> Option<real>) returns (r: Result<DF.DataFrame>)
    ensures |records| < 2 ==> r == Err(MissingDataRows)
    ensures |records| >= 2 && !Rectangular(|records[0]|, records[1..]) ==> r == Err(InconsistentColumns)
    ensures |records| >= 2 && Rectangular(|records[0]|, records[1..]) ==>
      if |records[0]| == 0 then r == Ok(DF.DataFrame([], [], 0))
      else if DF.SomeBlank(records[0]) then r == Err(InvalidColumnName)
      else
        && r.Ok?
        && DF.Consistent(r.value)
        && r.value.columns == records[0]
        && r.value.size == |records[0]| * (|records| - 1)
        && (forall c | 0 <= c < |records[0]| :: |r.value.series[c]| == |records| - 1)
        && forall c, k | 0 <= c < |records[0]| && 1 <= k < |records| ::
             r.value.series[c][k - 1] == Cell(records[k][c], parse)
  {
    if |records| < 2 {
      return Err(MissingDataRows);
    }
    var header := records[0];
    var rows := records[1..];
    var columns := CreateColumns(header, rows, parse);
    if columns.Err? {
      return Err(columns.error);
    }
    var cols := columns.value;
    var data := seq(|cols|, i requires 0 <= i < |cols| => ListV(cols[i]));
    r := DF.NewConsistent(data, header);
    if r.Ok? && |data| > 0 {
      BlockIndex(r.value.series, |rows|);
      forall c, k | 0 <= c < |header| && 1 <= k < |records|
        ensures r.value.series[c][k - 1] == Cell(records[k][c], parse)
      {
        assert rows[k - 1] == records[k];
      }
    }
  }
}

=== FILE: dataframe.dfy ===
/** The column store of internal/dataframe/dataframe.go: named series of
    dynamically typed values, with validated construction, first-match column
    lookup, copy-returning selection and set-semantics `Distinct`. */
module DataFrame {
  import opened Values
  import opened Sequences
  import Rdd

  /** `series[i]` holds the values of column `columns[i]`; `size` counts
      cells over all columns, not rows. */
  datatype DataFrame = DataFrame(series: seq<seq<Value>>, columns: seq<string>, size: nat)

  /** One series per column name. `New` breaks this on its empty-data path. */
  predicate Consistent(df: DataFrame)
  {
    |df.series| == |df.columns|
  }

  /** The number of cells in a list of columns, added up one column at a
      time as `New` does. */
  function CellCount(cols: seq<seq<Value>>): (n: nat)
    ensures n == |Concat(cols)|
  {
    if |cols| == 0 then 0 else CellCount(cols[..|cols| - 1]) + |cols[|cols| - 1]|
  }

  predicate SomeBlank(columns: seq<string>)
  {
    exists i | 0 <= i < |columns| :: IsBlank(columns[i])
  }

  /** A column is accepted only as a `[]interface{}`. */
  predicate AllSlices(data: seq<Value>)
  {
    forall i | 0 <= i < |data| :: data[i].ListV?
  }

  /** `New`: empty `data` succeeds at once, keeping the names unchecked and
      storing no series. Otherwise the checks run in this order: no names,
      a count mismatch, a blank name, a column that is not a slice. */
  function New(data: seq<Value>, columns: seq<string>): (r: Result<DataFrame>)
    ensures |data| == 0 ==> r == Ok(DataFrame([], columns, 0))
    ensures |data| > 0 && |columns| == 0 ==> r == Err(InvalidColumnName)
    ensures |data| > 0 && |columns| > 0 && |data| != |columns| ==> r == Err(InvalidData)
    ensures |data| > 0 && |data| == |columns| && SomeBlank(columns) ==> r == Err(InvalidColumnName)
    ensures |data| > 0 && |data| == |columns| && !SomeBlank(columns) && !AllSlices(data) ==> r == Err(InvalidData)
    ensures r.Ok? <==> |data| == 0 || (|data| == |columns| && !SomeBlank(columns) && AllSlices(data))
    ensures r.Ok? && |data| > 0 ==>
      && Consistent(r.value)
      && r.value.columns == columns
      && (forall i | 0 <= i < |data| :: r.value.series[i] == data[i].items)
      && r.value.size == |Concat(r.value.series)|
  {
    if |data| == 0 then Ok(DataFrame([], columns, 0))
    else if |columns| == 0 then Err(InvalidColumnName)
    else if |data| != |columns| then Err(InvalidData)
    else if SomeBlank(columns) then Err(InvalidColumnName)
    else if !AllSlices(data) then Err(InvalidData)
    else
      var series := seq(|data|, i requires 0 <= i < |data| => data[i].items);
      Ok(DataFrame(series, columns, CellCount(series)))
  }

  /** `New` with the empty-data path repaired: every name gets an empty
      series, so every stored name can be selected. */
  function NewConsistent(data: seq<Value>, columns: seq<string>): (r: Result<DataFrame>)
    ensures r.Ok? ==> Consistent(r.value) && r.value.columns == columns
    ensures |data| == 0 ==> r.Ok? && r.value.size == 0
    ensures |data| > 0 || |columns| == 0 ==> r == New(data, columns)
  {
    if |data| == 0 then Ok(DataFrame(seq(|columns|, _ => []), columns, 0))
    else New(data, columns)
  }

  /** The empty-data path of `New` keeps the names but stores no series:
      the name is found, yet the series its index points at does not exist,
      so `Select` or `GroupBy` on it would index past the end. On the same
      input the repaired constructor yields a frame whose column selects as
      an empty series. */
  lemma EmptyNewSelectOutOfRange()
    ensures New([], ["a"]).Ok?
    ensures HasColumn(New([], ["a"]).value, "a")
    ensures !SeriesPresent(New([], ["a"]).value, "a")
    ensures NewConsistent([], ["a"]).Ok?
    ensures Select(NewConsistent([], ["a"]).value, "a") == Ok([])
  {
    var bad := New([], ["a"]).value;
    assert bad.columns[0] == "a";
    var good := NewConsistent([], ["a"]).value;
    assert good.columns[0] == "a";
    assert !IsBlank("a") by { assert "a"[0] == 'a'; }
  }

  /** First position at or after `i` holding `name`, or -1. */
  function IndexFrom(columns: seq<string>, name: string, i: nat): (r: int)
    requires i <= |columns|
    ensures r == -1 <==> forall j | i <= j < |columns| :: columns[j] != name
    ensures r != -1 ==> i <= r < |columns| && columns[r] == name
    ensures r != -1 ==> forall j | i <= j < r :: columns[j] != name
    decreases |columns| - i
  {
    if i == |columns| then -1
    else if columns[i] == name then i
    else IndexFrom(columns, name, i + 1)
  }

  /** `getColumnIndex`: the first column called `name`, or `ErrColumnNotFound`. */
  function GetColumnIndex(df: DataFrame, name: string): (r: Result<nat>)
    ensures r.Err? <==> name !in df.columns
    ensures r.Err? ==> r.error == ColumnNotFound
    ensures r.Ok? ==> r.value < |df.columns| && df.columns[r.value] == name
    ensures r.Ok? ==> forall j | 0 <= j < r.value :: df.columns[j] != name
  {
    var i := IndexFrom(df.columns, name, 0);
    if i == -1 then Err(ColumnNotFound) else Ok(i)
  }

  /** `HasColumn`: some column is called `name`. */
  function HasColumn(df: DataFrame, name: string): (b: bool)
    ensures b <==> GetColumnIndex(df, name).Ok?
  {
    exists i | 0 <= i < |df.columns| :: df.columns[i] == name
  }

  /** The series the lookup of `name` would index exists. Go indexes
      `df.series` without a bounds check, so without this the program panics. */
  predicate SeriesPresent(df: DataFrame, name: string)
  {
    GetColumnIndex(df, name).Ok? ==> GetColumnIndex(df, name).value < |df.series|
  }

  lemma ConsistentSeriesPresent(df: DataFrame, name: string)
    requires Consistent(df)
    ensures SeriesPresent(df, name)
  {
  }

  /** `Select`: a blank name is rejected before the lookup; an absent name is
      `ErrColumnNotFound`; otherwise a copy of the first matching column. */
  function Select(df: DataFrame, name: string): (r: Result<seq<Value>>)
    requires !IsBlank(name) ==> SeriesPresent(df, name)
    ensures IsBlank(name) ==> r == Err(InvalidColumnName)
    ensures !IsBlank(name) && !HasColumn(df, name) ==> r == Err(ColumnNotFound)
    ensures !IsBlank(name) && HasColumn(df, name) ==>
      exists i | 0 <= i < |df.columns| && i < |df.series| ::
        && df.columns[i] == name
        && (forall j | 0 <= j < i :: df.columns[j] != name)
        && r == Ok(df.series[i])
  {
    if IsBlank(name) then Err(InvalidColumnName)
    else
      match GetColumnIndex(df, name)
      case Err(e) => Err(e)
      case Ok(i) => Ok(df.series[i])
  }

  /** `Columns`: a copy of the names, so every name it lists is one
      `HasColumn` finds, and no other. */
  function Columns(df: DataFrame): (names: seq<string>)
    ensures forall name :: name in names <==> HasColumn(df, name)
  {
    df.columns
  }

  function Size(df: DataFrame): nat
  {
    df.size
  }

  function NumColumns(df: DataFrame): (n: nat)
    ensures n == |Columns(df)|
  {
    |df.columns|
  }

  /** `Series.Count`. */
  function Count(s: seq<Value>): nat
  {
    |s|
  }

  /** The size `New` records is the number of cells over all series, so no
      single series counts more than the size. */
  lemma SizeCountsCells(data: seq<Value>, columns: seq<string>)
    requires New(data, columns).Ok?
    ensures Size(New(data, columns).value) == |Concat(New(data, columns).value.series)|
    ensures forall i | 0 <= i < |New(data, columns).value.series| ::
      Count(New(data, columns).value.series[i]) <= Size(New(data, columns).value)
  {
    var df := New(data, columns).value;
    forall i | 0 <= i < |df.series| ensures |df.series[i]| <= |Concat(df.series)| {
      ConcatCountsBlock(df.series, i);
    }
  }

  /** `Distinct` never counts more values than the series it came from, and
      counts as many exactly when the series holds no value twice. */
  lemma DistinctCount(s: seq<Value>, ctx: Context, order: seq<Value>)
    requires !ctx.doneAtEntry && |s| > 0 ==> AllHashable(s)
    requires Listing(order, s)
    requires Distinct(s, ctx, order).Ok?
    ensures 1 <= Count(Distinct(s, ctx, order).value) <= Count(s)
    ensures Count(Distinct(s, ctx, order).value) == Count(s) <==> NoDup(s)
  {
    var d := Distinct(s, ctx, order).value;
    NoDupCard(d);
    assert (set v | v in d) == (set v | v in s);
    DistinctCard(s);
    if NoDup(s) {
      NoDupCard(s);
    }
    assert s[0] in d;
  }

  /** Selecting column `i` of a frame `New` built returns exactly the data
      passed for it, provided no earlier column has the same name. */
  lemma NewThenSelect(data: seq<Value>, columns: seq<string>, i: nat)
    requires New(data, columns).Ok? && |data| > 0
    requires i < |columns|
    requires forall j | 0 <= j < i :: columns[j] != columns[i]
    ensures Select(New(data, columns).value, columns[i]) == Ok(data[i].items)
    ensures Count(data[i].items) == Count(Select(New(data, columns).value, columns[i]).value)
  {
    var df := New(data, columns).value;
    assert !IsBlank(columns[i]);
    assert HasColumn(df, columns[i]) by { assert df.columns[i] == columns[i]; }
  }

  /** `NewFromRDD`: one column named "value" holding the collected elements. */
  function NewFromRDD(r: Rdd.Rdd): (df: DataFrame)
    ensures Consistent(df)
    ensures Columns(df) == ["value"] && NumColumns(df) == 1
    ensures Size(df) == Rdd.Size(r)
    ensures Select(df, "value") == Ok(Rdd.Collect(r))
  {
    var data := Rdd.Collect(r);
    var df := DataFrame([data], ["value"], |data|);
    assert !IsBlank("value") by { assert "value"[0] == 'v' && !IsSpace('v'); }
    assert GetColumnIndex(df, "value") == Ok(0);
    df
  }

  /** The values of `s` without repeats, each at its first occurrence: a
      witness that every series has a listing. */
  function Dedup(s: seq<Value>): (d: seq<Value>)
    ensures NoDup(d)
    ensures forall v :: v in d <==> v in s
    ensures |d| <= |s|
  {
    if |s| == 0 then []
    else
      var d := Dedup(s[..|s| - 1]);
      var last := s[|s| - 1];
      assert forall v :: v in s <==> v in s[..|s| - 1] || v == last by {
        assert s == s[..|s| - 1] + [last];
      }
      if last in d then d else d + [last]
  }

  /** `order` lists every value of `s` exactly once. This admits every
      duplicate-free listing of the values, which includes every order in
      which Go may iterate a map whose keys are the values of `s`. */
  ghost predicate Listing(order: seq<Value>, s: seq<Value>)
  {
    NoDup(order) && forall v :: v in order <==> v in s
  }

  /** `Series.Distinct`: the context's error if it is done, `ErrEmptyDataFrame`
      for an empty series, the context's error if it is seen during the scan,
      and otherwise every distinct value exactly once. Go returns them in map
      iteration order, which the language leaves unspecified; that order is
      the parameter `order`. */
  function Distinct(s: seq<Value>, ctx: Context, order: seq<Value>): (r: Result<seq<Value>>)
    requires !ctx.doneAtEntry && |s| > 0 ==> AllHashable(s)
    requires Listing(order, s)
    ensures ctx.doneAtEntry ==> r == Err(Canceled)
    ensures !ctx.doneAtEntry && |s| == 0 ==> r == Err(EmptyDataFrame)
    ensures !ctx.doneAtEntry && |s| > 0 && ctx.cancelledMidway ==> r == Err(Canceled)
    ensures !ctx.doneAtEntry && |s| > 0 && !ctx.cancelledMidway ==> r.Ok?
    ensures r.Ok? ==> NoDup(r.value) && forall v :: v in r.value <==> v in s
    ensures r.Ok? ==> r.value == order
  {
    if ctx.doneAtEntry then Err(Canceled)
    else if |s| == 0 then Err(EmptyDataFrame)
    else if ctx.cancelledMidway then Err(Canceled)
    else Ok(order)
  }

  /** Every series has a listing, so `Distinct` can always be called: the
      first-occurrence order is one. */
  lemma DedupIsListing(s: seq<Value>)
    requires AllHashable(s)
    ensures Listing(Dedup(s), s)
    ensures Distinct(s, Context(false, false), Dedup(s)) == if |s| == 0 then Err(EmptyDataFrame) else Ok(Dedup(s))
  {
  }

  /** Whatever order the map iteration takes, `Distinct` returns the same
      values: any two successful results are permutations of each other. */
  lemma DistinctOrderIrrelevant(s: seq<Value>, ctx: Context, o1: seq<Value>, o2: seq<Value>)
    requires !ctx.doneAtEntry && |s| > 0 ==> AllHashable(s)
    requires Listing(o1, s) && Listing(o2, s)
    requires Distinct(s, ctx, o1).Ok?
    ensures Distinct(s, ctx, o2).Ok?
    ensures multiset(Distinct(s, ctx, o1).value) == multiset(Distinct(s, ctx, o2).value)
  {
    SameElementsPermuted(o1, o2);
  }
}

=== FILE: groupby.dfy ===
/** Grouping and aggregation of internal/dataframe/groupby.go.

    `GroupBy` buckets one column's values by themselves; `Agg` registers
    reducers; `Show` emits one `(key, reducer(group))` row per key and per
    reducer into a two-column frame. Go iterates the group map in an
    unspecified order; `Show` takes that order as a parameter. */
module Grouping {
  import opened Values
  import opened Sequences
  import DF = DataFrame

  /** An aggregation function: a group's members to a Go `int`. */
  type Reducer = seq<Value> -> int

  /** `DataFrameGroupBy`: the source frame, the grouping column's name, the
      registered reducers in registration order, and the groups. */
  datatype Grouped = Grouped(
    df: DF.DataFrame,
    columnName: string,
    aggs: seq<Reducer>,
    groups: map<Value, seq<Value>>)

  /** `n` copies of `v`. */
  function Copies(v: Value, n: nat): (s: seq<Value>)
    ensures |s| == n
    ensures forall i | 0 <= i < n :: s[i] == v
  {
    seq(n, _ => v)
  }

  /** The grouping loop: each value is appended to the list keyed by itself. */
  function Bucket(col: seq<Value>): (g: map<Value, seq<Value>>)
    ensures forall v :: v in g <==> v in col
    ensures forall v | v in g :: g[v] == Copies(v, multiset(col)[v])
  {
    if |col| == 0 then map[]
    else
      var init := col[..|col| - 1];
      var el := col[|col| - 1];
      var g := Bucket(init);
      assert col == init + [el];
      g[el := (if el in g then g[el] else []) + [el]]
  }

  /** The column `GroupBy` scans: the first column with the given name. */
  function GroupColumn(df: DF.DataFrame, name: string): seq<Value>
    requires DF.HasColumn(df, name) && DF.SeriesPresent(df, name)
  {
    df.series[DF.GetColumnIndex(df, name).value]
  }

  /** What the Go runtime needs for `GroupBy` not to panic: the series the
      lookup finds exists and its values can be map keys. */
  predicate Groupable(df: DF.DataFrame, name: string)
  {
    DF.HasColumn(df, name) ==> DF.SeriesPresent(df, name) && AllHashable(GroupColumn(df, name))
  }

  /** `GroupBy`: the context's error first, then `ErrColumnNotFound` for an
      absent column (a blank name is not rejected here), then the context's
      error if seen during the scan; otherwise every distinct value of the
      column is a key whose group holds all its occurrences. */
  function GroupBy(df: DF.DataFrame, ctx: Context, name: string): (r: Result<Grouped>)
    requires !ctx.doneAtEntry ==> Groupable(df, name)
    ensures ctx.doneAtEntry ==> r.Err? && r.error == Canceled
    ensures !ctx.doneAtEntry && !DF.HasColumn(df, name) ==> r.Err? && r.error == ColumnNotFound
    ensures r.Err? ==> r.error == Canceled || r.error == ColumnNotFound
    ensures !ctx.doneAtEntry && !ctx.cancelledMidway && DF.HasColumn(df, name) ==> r.Ok?
    ensures !ctx.doneAtEntry && DF.HasColumn(df, name) && |GroupColumn(df, name)| > 0 && ctx.cancelledMidway ==>
      r == Err(Canceled)
    ensures r.Ok? ==>
      && DF.HasColumn(df, name)
      && r.value.df == df
      && r.value.columnName == name
      && |r.value.aggs| == 0
      && (forall v :: v in r.value.groups <==> v in GroupColumn(df, name))
      && (forall v | v in r.value.groups ::
            |r.value.groups[v]| == multiset(GroupColumn(df, name))[v]
            && forall i | 0 <= i < |r.value.groups[v]| :: r.value.groups[v][i] == v)
  {
    if ctx.doneAtEntry then Err(Canceled)
    else if !DF.HasColumn(df, name) then Err(ColumnNotFound)
    else
      var col := GroupColumn(df, name);
      if |col| > 0 && ctx.cancelledMidway then Err(Canceled)
      else Ok(Grouped(df, name, [], Bucket(col)))
  }

  /** The group lists for the keys in `order`, each key's list holding
      `m[key]` copies of it. */
  function CopiesFor(order: seq<Value>, m: multiset<Value>): (bs: seq<seq<Value>>)
    ensures |bs| == |order|
  {
    if |order| == 0 then []
    else CopiesFor(order[..|order| - 1], m) + [Copies(order[|order| - 1], m[order[|order| - 1]])]
  }

  lemma {:induction false} CopiesForAgree(order: seq<Value>, m: multiset<Value>, m': multiset<Value>)
    requires forall i | 0 <= i < |order| :: m[order[i]] == m'[order[i]]
    ensures CopiesFor(order, m) == CopiesFor(order, m')
    decreases |order|
  {
    if |order| > 0 {
      CopiesForAgree(order[..|order| - 1], m, m');
    }
  }

  /** `n` copies of `v` hold `v` exactly `n` times and nothing else. */
  lemma {:induction false} CopiesMultiset(v: Value, n: nat)
    ensures multiset(Copies(v, n)) == multiset{}[v := n]
    decreases n
  {
    if n > 0 {
      CopiesMultiset(v, n - 1);
      assert Copies(v, n) == Copies(v, n - 1) + [v];
    }
  }

  /** Listing, for every value of a multiset once, all its copies gives back
      the multiset. */
  lemma {:induction false} CopiesForCover(order: seq<Value>, m: multiset<Value>)
    requires NoDup(order)
    requires forall v :: v in order <==> v in m
    ensures multiset(Concat(CopiesFor(order, m))) == m
    decreases |order|
  {
    if |order| == 0 {
      assert forall v :: v !in m;
    } else {
      var init := order[..|order| - 1];
      var k := order[|order| - 1];
      var m' := m[k := 0];
      DropLastKey(order);
      forall v ensures v in init <==> v in m' {
        if v != k {
          assert v in order <==> v in init by { assert order == init + [k]; }
        }
      }
      CopiesForCover(init, m');
      CopiesForAgree(init, m, m');
      CopiesMultiset(k, m[k]);
      var bs := CopiesFor(order, m);
      var last := Copies(k, m[k]);
      assert bs[..|bs| - 1] == CopiesFor(init, m) && bs[|bs| - 1] == last;
      var rest := Concat(CopiesFor(init, m));
      assert Concat(bs) == rest + last;
      assert multiset(rest) == m';
      MultisetSplit(m, k);
    }
  }

  /** Without its last key, a duplicate-free key list is still duplicate-free
      and no longer holds that key. */
  lemma DropLastKey(order: seq<Value>)
    requires |order| > 0 && NoDup(order)
    ensures NoDup(order[..|order| - 1])
    ensures order[|order| - 1] !in order[..|order| - 1]
  {
    var init := order[..|order| - 1];
    var k := order[|order| - 1];
    forall i | 0 <= i < |init| ensures init[i] != k {
      assert init[i] == order[i];
    }
    forall i, j | 0 <= i < j < |init| ensures init[i] != init[j] {
      assert init[i] == order[i] && init[j] == order[j];
    }
  }

  /** A multiset is its copies of `k` plus everything else. */
  lemma MultisetSplit(m: multiset<Value>, k: Value)
    ensures m == m[k := 0] + multiset{}[k := m[k]]
  {
    var parts := m[k := 0] + multiset{}[k := m[k]];
    forall v ensures parts[v] == m[v] {
      if v == k {
        assert parts[v] == 0 + m[k];
      }
    }
  }

  /** The groups listed in a key order. */
  function GroupsIn(groups: map<Value, seq<Value>>, order: seq<Value>): (bs: seq<seq<Value>>)
    requires forall i | 0 <= i < |order| :: order[i] in groups
    ensures |bs| == |order|
    ensures forall i | 0 <= i < |order| :: bs[i] == groups[order[i]]
  {
    seq(|order|, i requires 0 <= i < |order| => groups[order[i]])
  }

  /** A key order for `Show`: every key exactly once. */
  ghost predicate KeyOrder(groups: map<Value, seq<Value>>, order: seq<Value>)
  {
    NoDup(order) && forall v :: v in order <==> v in groups
  }

  /** A key order lists as many keys as the map holds. */
  lemma KeyOrderLength(groups: map<Value, seq<Value>>, order: seq<Value>)
    requires KeyOrder(groups, order)
    ensures |order| == |groups|
  {
    NoDupCard(order);
    assert (set v | v in order) == groups.Keys;
  }

  /** The groups partition the column: listed in any key order, together
      they hold the column's values with their multiplicities, so the group
      lengths add up to the column length and there are as many keys as
      distinct values. */
  lemma GroupsPartition(col: seq<Value>, order: seq<Value>)
    requires KeyOrder(Bucket(col), order)
    ensures multiset(Concat(GroupsIn(Bucket(col), order))) == multiset(col)
    ensures |Concat(GroupsIn(Bucket(col), order))| == |col|
    ensures |order| == |set v | v in col|
  {
    var g := Bucket(col);
    var m := multiset(col);
    assert forall v :: v in order <==> v in m;
    CopiesForIsGroups(col, order);
    CopiesForCover(order, m);
    var all := Concat(GroupsIn(g, order));
    assert multiset(all) == m;
    assert |all| == |multiset(all)| == |m| == |col|;
    assert forall v :: v in order <==> v in col;
    SameElementsSameSet(order, col);
    NoDupCard(order);
  }

  lemma SameElementsSameSet(a: seq<Value>, b: seq<Value>)
    requires forall v :: v in a <==> v in b
    ensures (set v | v in a) == (set v | v in b)
  {
  }

  lemma {:induction false} CopiesForIsGroups(col: seq<Value>, order: seq<Value>)
    requires forall i | 0 <= i < |order| :: order[i] in Bucket(col)
    ensures GroupsIn(Bucket(col), order) == CopiesFor(order, multiset(col))
    decreases |order|
  {
    if |order| > 0 {
      var init := order[..|order| - 1];
      CopiesForIsGroups(col, init);
      assert GroupsIn(Bucket(col), order) == GroupsIn(Bucket(col), init) + [Bucket(col)[order[|order| - 1]]];
    }
  }

  /** After a successful `GroupBy`, the key orders `Show` accepts are
      exactly the listings of the grouping column, which are the orders
      `Distinct` may return for it; the first-occurrence order is one. */
  lemma GroupKeysAreListings(df: DF.DataFrame, ctx: Context, name: string, order: seq<Value>)
    requires !ctx.doneAtEntry ==> Groupable(df, name)
    requires GroupBy(df, ctx, name).Ok?
    ensures KeyOrder(GroupBy(df, ctx, name).value.groups, order) <==> DF.Listing(order, GroupColumn(df, name))
    ensures KeyOrder(GroupBy(df, ctx, name).value.groups, DF.Dedup(GroupColumn(df, name)))
  {
  }

  /** `Agg`: the reducer goes after the ones already registered; nothing else
      changes. */
  function Agg(g: Grouped, f: Reducer): (r: Grouped)
    ensures |r.aggs| == |g.aggs| + 1
    ensures r.aggs[..|g.aggs|] == g.aggs && r.aggs[|g.aggs|] == f
    ensures r.df == g.df && r.columnName == g.columnName && r.groups == g.groups
  {
    g.(aggs := g.aggs + [f])
  }

  /** The key column `Show` builds: each key repeated once per reducer. */
  function ShowKeys(order: seq<Value>, a: nat): (r: seq<Value>)
    ensures |r| == |order| * a
    ensures forall p, j | 0 <= p < |order| && 0 <= j < a ::
      Row(p, a, j) < |r| && r[Row(p, a, j)] == order[p]
  {
    var blocks := seq(|order|, p requires 0 <= p < |order| => Copies(order[p], a));
    BlockIndex(blocks, a);
    Concat(blocks)
  }

  /** The value column `Show` builds: for each key, every reducer applied to
      its group, in registration order. */
  function ShowValues(g: Grouped, order: seq<Value>): (r: seq<Value>)
    requires forall p | 0 <= p < |order| :: order[p] in g.groups
    ensures |r| == |order| * |g.aggs|
    ensures forall p, j | 0 <= p < |order| && 0 <= j < |g.aggs| ::
      Row(p, |g.aggs|, j) < |r| && r[Row(p, |g.aggs|, j)] == IntV(g.aggs[j](g.groups[order[p]]))
  {
    var a := |g.aggs|;
    var blocks := seq(|order|, p requires 0 <= p < |order| =>
      seq(a, j requires 0 <= j < a => IntV(g.aggs[j](g.groups[order[p]]))));
    BlockIndex(blocks, a);
    Concat(blocks)
  }

  /** `Show`: the context's error first, then `ErrInvalidData` when no reducer
      is registered, then the context's error if seen while walking the
      groups. Otherwise a frame with columns `[columnName, "count"]` and
      `|groups| * |aggs|` rows: for the `p`-th key and the `j`-th reducer, row
      `Row(p, |aggs|, j)` pairs the key with the reducer applied to its group.
      A blank grouping name is rejected by the frame constructor. */
  function Show(g: Grouped, ctx: Context, order: seq<Value>): (r: Result<DF.DataFrame>)
    requires KeyOrder(g.groups, order)
    ensures ctx.doneAtEntry ==> r == Err(Canceled)
    ensures !ctx.doneAtEntry && |g.aggs| == 0 ==> r == Err(InvalidData)
    ensures !ctx.doneAtEntry && |g.aggs| > 0 && |g.groups| > 0 && ctx.cancelledMidway ==> r == Err(Canceled)
    ensures !ctx.doneAtEntry && |g.aggs| > 0 && (|g.groups| == 0 || !ctx.cancelledMidway) ==>
      if IsBlank(g.columnName) then r == Err(InvalidColumnName)
      else
        && r.Ok?
        && DF.Consistent(r.value)
        && r.value.columns == [g.columnName, "count"]
        && |r.value.series[0]| == |r.value.series[1]| == |g.groups| * |g.aggs|
        && DF.Size(r.value) == 2 * (|g.groups| * |g.aggs|)
        && forall p, j | 0 <= p < |order| && 0 <= j < |g.aggs| ::
             && Row(p, |g.aggs|, j) < |r.value.series[0]|
             && r.value.series[0][Row(p, |g.aggs|, j)] == order[p]
             && r.value.series[1][Row(p, |g.aggs|, j)] == IntV(g.aggs[j](g.groups[order[p]]))
  {
    if ctx.doneAtEntry then Err(Canceled)
    else if |g.aggs| == 0 then Err(InvalidData)
    else if |g.groups| > 0 && ctx.cancelledMidway then Err(Canceled)
    else
      var keys := ShowKeys(order, |g.aggs|);
      var vals := ShowValues(g, order);
      KeyOrderLength(g.groups, order);
      ShowColumnsBlank(g.columnName);
      ConcatPair(keys, vals);
      DF.NewConsistent([ListV(keys), ListV(vals)], [g.columnName, "count"])
  }

  /** Only the grouping name can make `Show`'s column names blank. */
  lemma ShowColumnsBlank(name: string)
    ensures DF.SomeBlank([name, "count"]) <==> IsBlank(name)
  {
    assert !IsBlank("count") by { assert "count"[0] == 'c'; }
    assert [name, "count"][0] == name && [name, "count"][1] == "count";
  }

  /** The `Count` reducer: the group's length. */
  function Count(group: seq<Value>): int
  {
    |group|
  }

  /** The mathematical sum of the `int` members of a group. */
  function IntTotal(group: seq<Value>): int
  {
    if |group| == 0 then 0
    else
      var last := group[|group| - 1];
      IntTotal(group[..|group| - 1]) + (if last.IntV? then last.i else 0)
  }

  /** The `Sum` reducer: adds the `int` members in order, skipping every other
      value, with Go's 64-bit wrap-around on each addition. */
  function Sum(group: seq<Value>): (r: int)
    ensures InInt64(r)
  {
    if |group| == 0 then 0
    else
      var last := group[|group| - 1];
      var s := Sum(group[..|group| - 1]);
      if last.IntV? then Wrap64(s + last.i) else s
  }

  /** Wrapping on every addition, as `Sum` does, ends at the 64-bit wrap of
      the exact total. */
  lemma {:induction false} SumIsWrappedTotal(group: seq<Value>)
    ensures Sum(group) == Wrap64(IntTotal(group))
    decreases |group|
  {
    if |group| > 0 {
      var init, last := group[..|group| - 1], group[|group| - 1];
      SumIsWrappedTotal(init);
      if last.IntV? {
        SumStep(IntTotal(init), Sum(init), last.i);
      }
    }
  }

  /** One step of `Sum`: adding to the wrapped running total and wrapping
      again is wrapping the exact running total. */
  lemma SumStep(total: int, s: int, x: int)
    requires s == Wrap64(total)
    ensures Wrap64(s + x) == Wrap64(total + x)
  {
    WrapAddAbsorbs(total, x);
  }

  /** With `Count` registered, each key's row reports how often the key occurs
      in the grouped column. */
  lemma CountReportsOccurrences(col: seq<Value>, v: Value)
    requires v in col
    ensures v in Bucket(col) && Count(Bucket(col)[v]) == multiset(col)[v]
  {
  }

  /** `Sum` of a group without ints is 0; of an empty group too. */
  lemma {:induction false} SumSkipsNonInts(group: seq<Value>)
    requires forall i | 0 <= i < |group| :: !group[i].IntV?
    ensures Sum(group) == 0
    decreases |group|
  {
    if |group| > 0 {
      SumSkipsNonInts(group[..|group| - 1]);
    }
  }

  /** A frame with a "category" column `["A", "B", "A"]` and a "value" column
      `[1, 2, 3]`. */
  function ExampleFrame(): DF.DataFrame
  {
    DF.DataFrame([ExampleColumn(), [IntV(1), IntV(2), IntV(3)]], ["category", "value"], 6)
  }

  /** The column "category" of the example frame. */
  function ExampleColumn(): seq<Value>
  {
    [StrV("A"), StrV("B"), StrV("A")]
  }

  /** The groups of the example column: "A" twice and "B" once. */
  ghost predicate ExampleGrouping(groups: map<Value, seq<Value>>)
  {
    && (forall v :: v in groups <==> v == StrV("A") || v == StrV("B"))
    && groups[StrV("A")] == [StrV("A"), StrV("A")]
    && groups[StrV("B")] == [StrV("B")]
  }

  lemma ExampleCounts()
    ensures multiset(ExampleColumn())[StrV("A")] == 2
    ensures multiset(ExampleColumn())[StrV("B")] == 1
    ensures forall v :: v in ExampleColumn() <==> v == StrV("A") || v == StrV("B")
  {
    var col := ExampleColumn();
    assert col == [StrV("A")] + [StrV("B")] + [StrV("A")];
    assert col[0] == StrV("A") && col[1] == StrV("B");
  }

  /** Bucketing `["A", "B", "A"]` gives the keys "A" and "B", with "A" twice
      and "B" once. */
  lemma ExampleBucket()
    ensures ExampleGrouping(Bucket(ExampleColumn()))
  {
    var g := Bucket(ExampleColumn());
    ExampleCounts();
    assert g[StrV("A")] == Copies(StrV("A"), 2);
    assert g[StrV("B")] == Copies(StrV("B"), 1);
  }

  lemma ExampleGroups()
    ensures GroupBy(ExampleFrame(), Context(false, false), "category").Ok?
    ensures GroupBy(ExampleFrame(), Context(false, false), "category").value.groups == Bucket(ExampleColumn())
    ensures GroupBy(ExampleFrame(), Context(false, false), "category").value.columnName == "category"
    ensures GroupBy(ExampleFrame(), Context(false, false), "category").value.aggs == []
  {
    var df := ExampleFrame();
    assert DF.GetColumnIndex(df, "category") == Ok(0) by { assert df.columns[0] == "category"; }
  }

  /** The example frame is what `New` builds from the test's data. */
  lemma ExampleFrameFromNew()
    ensures DF.New([ListV(ExampleColumn()), ListV([IntV(1), IntV(2), IntV(3)])], ["category", "value"])
            == Ok(ExampleFrame())
  {
    var nums := [IntV(1), IntV(2), IntV(3)];
    var data := [ListV(ExampleColumn()), ListV(nums)];
    var cols := ["category", "value"];
    assert !DF.SomeBlank(cols) by {
      assert !IsBlank("category") by { assert "category"[0] == 'c'; }
      assert !IsBlank("value") by { assert "value"[0] == 'v'; }
    }
    var df := DF.New(data, cols).value;
    assert df.series == [ExampleColumn(), nums] by {
      assert |df.series| == 2;
      assert df.series[0] == data[0].items && df.series[1] == data[1].items;
    }
    ConcatPair(ExampleColumn(), nums);
  }

  /** The grouping column of the first case of the `GroupBy` test. */
  function TestColumn(): seq<Value>
  {
    [StrV("A"), StrV("B"), StrV("A"), StrV("C"), StrV("B")]
  }

  /** The frame of the first case of the `GroupBy` test. */
  function TestFrame(): DF.DataFrame
  {
    DF.DataFrame([TestColumn(), [IntV(1), IntV(2), IntV(3), IntV(4), IntV(5)]], ["col1", "col2"], 10)
  }

  /** The test frame is what `New` builds from the test's data. */
  lemma TestFrameFromNew()
    ensures DF.New([ListV(TestColumn()), ListV([IntV(1), IntV(2), IntV(3), IntV(4), IntV(5)])], ["col1", "col2"])
            == Ok(TestFrame())
  {
    var nums := [IntV(1), IntV(2), IntV(3), IntV(4), IntV(5)];
    var data := [ListV(TestColumn()), ListV(nums)];
    var cols := ["col1", "col2"];
    assert !DF.SomeBlank(cols) by {
      assert !IsBlank("col1") by { assert "col1"[0] == 'c'; }
      assert !IsBlank("col2") by { assert "col2"[0] == 'c'; }
    }
    var df := DF.New(data, cols).value;
    assert df.series == [TestColumn(), nums] by {
      assert |df.series| == 2;
      assert df.series[0] == data[0].items && df.series[1] == data[1].items;
    }
    ConcatPair(TestColumn(), nums);
  }

  /** The keys of a bucketing are the column's values, so there are as many
      groups as distinct values. */
  lemma BucketKeys(col: seq<Value>, keys: set<Value>)
    requires forall v :: v in col <==> v in keys
    ensures Bucket(col).Keys == keys
    ensures |Bucket(col)| == |keys|
  {
  }

  /** The test column holds exactly "A", "B" and "C". */
  lemma TestColumnValues()
    ensures forall v :: v in TestColumn() <==> v in {StrV("A"), StrV("B"), StrV("C")}
  {
    var col := TestColumn();
    assert col[0] == StrV("A") && col[1] == StrV("B") && col[3] == StrV("C");
  }

  /** The test column has exactly three distinct values. */
  lemma TestBucketKeys()
    ensures Bucket(TestColumn()).Keys == {StrV("A"), StrV("B"), StrV("C")}
    ensures |Bucket(TestColumn())| == 3
  {
    var keys := {StrV("A"), StrV("B"), StrV("C")};
    assert |keys| == 3 by {
      assert StrV("A") != StrV("B") by { assert "A"[0] != "B"[0]; }
      assert StrV("B") != StrV("C") by { assert "B"[0] != "C"[0]; }
      assert StrV("A") != StrV("C") by { assert "A"[0] != "C"[0]; }
    }
    TestColumnValues();
    BucketKeys(TestColumn(), keys);
  }

  /** The first case of the `GroupBy` test: grouping `["A", "B", "A", "C",
      "B"]` gives three groups, one each for "A", "B" and "C". */
  lemma ThreeGroups()
    ensures GroupBy(TestFrame(), Context(false, false), "col1").Ok?
    ensures |GroupBy(TestFrame(), Context(false, false), "col1").value.groups| == 3
  {
    var df := TestFrame();
    assert DF.GetColumnIndex(df, "col1") == Ok(0) by { assert df.columns[0] == "col1"; }
    assert GroupColumn(df, "col1") == TestColumn();
    TestBucketKeys();
  }

  /** With the groups of `["A", "B", "A"]`, registering `Count` makes `Show`
      emit one row per key, pairing "A" with 2 and "B" with 1. */
  lemma CountShape(g: Grouped, order: seq<Value>)
    requires ExampleGrouping(g.groups)
    requires g.columnName == "category" && g.aggs == []
    requires KeyOrder(g.groups, order)
    ensures
      var once := Show(Agg(g, Count), Context(false, false), order);
      && once.Ok? && |once.value.series[0]| == 2
      && forall p | 0 <= p < 2 :: once.value.series[1][p] == IntV(if order[p] == StrV("A") then 2 else 1)
  {
    var h := Agg(g, Count);
    assert !IsBlank("category") by { assert "category"[0] == 'c'; }
    KeyOrderLength(g.groups, order);
    assert g.groups.Keys == {StrV("A"), StrV("B")};
    assert |g.groups| == 2;
    forall p | 0 <= p < 2
      ensures Show(h, Context(false, false), order).value.series[1][p] == IntV(if order[p] == StrV("A") then 2 else 1)
    {
      assert Row(p, 1, 0) == p;
      assert order[p] in g.groups;
    }
  }

  /** With the same groups, registering `Count` and then `Sum` gives two rows
      per key. */
  lemma CountSumShape(g: Grouped, order: seq<Value>)
    requires ExampleGrouping(g.groups)
    requires g.columnName == "category" && g.aggs == []
    requires KeyOrder(g.groups, order)
    ensures
      var twice := Show(Agg(Agg(g, Count), Sum), Context(false, false), order);
      twice.Ok? && |twice.value.series[0]| == 4
  {
    var h := Agg(Agg(g, Count), Sum);
    assert |h.aggs| == 2 && h.groups == g.groups && h.columnName == "category";
    assert !IsBlank("category") by { assert "category"[0] == 'c'; }
    KeyOrderLength(g.groups, order);
    assert g.groups.Keys == {StrV("A"), StrV("B")};
    assert |h.groups| * |h.aggs| == 4;
  }

  /** `Sum` adds the ints and skips everything else: `[1, 2, 3, 4, 5]` gives
      15, `[1, "string", 2, 3]` gives 6, and the empty group gives 0. */
  lemma SumExamples()
    ensures Sum([IntV(1), IntV(2), IntV(3), IntV(4), IntV(5)]) == 15
    ensures Sum([IntV(1), StrV("string"), IntV(2), IntV(3)]) == 6
    ensures Sum([]) == 0 && Count([]) == 0
  {
    SumOfInts();
    SumIsWrappedTotal([IntV(1), IntV(2), IntV(3), IntV(4), IntV(5)]);
    SumSkipsString();
    SumIsWrappedTotal([IntV(1), StrV("string"), IntV(2), IntV(3)]);
  }

  lemma SumOfInts()
    ensures IntTotal([IntV(1), IntV(2), IntV(3), IntV(4), IntV(5)]) == 15
  {
    var a := [IntV(1), IntV(2), IntV(3), IntV(4), IntV(5)];
    assert a[..1][..0] == [] && a[..2][..1] == a[..1] && a[..3][..2] == a[..2] && a[..4][..3] == a[..3];
    assert IntTotal(a[..1]) == 1;
    assert IntTotal(a[..2]) == 3;
    assert IntTotal(a[..3]) == 6;
    assert IntTotal(a[..4]) == 10;
  }

  lemma SumSkipsString()
    ensures IntTotal([IntV(1), StrV("string"), IntV(2), IntV(3)]) == 6
  {
    var b := [IntV(1), StrV("string"), IntV(2), IntV(3)];
    assert b[..1][..0] == [] && b[..2][..1] == b[..1] && b[..3][..2] == b[..2];
    assert IntTotal(b[..1]) == 1;
    assert IntTotal(b[..2]) == 1;
    assert IntTotal(b[..3]) == 3;
  }
}

=== FILE: rdd.dfy ===
/** The resilient distributed dataset of internal/rdd/rdd.go: an immutable
    sequence with parallel `Map`, `Filter`, `FlatArray` and `FlatMap`.

    Each transformation is written sequentially. The goroutine scheduling it
    cannot see is given as parameters:
    - `cpus` is `runtime.NumCPU()`;
    - a `Schedule` says which worker dequeued each job and in which order the
      workers' batches reached the collector;
    - `Map`'s `arrival` is the order in which indexed results came back.
    Every contract holds for every schedule. */
module Rdd {
  import opened Values
  import opened Sequences
  import opened Scheduler

  datatype RddState = RddState(data: seq<Value>, size: nat)

  /** The stored size always equals the number of stored elements; the Go
      struct's fields are unexported and only `New` fills them. */
  type Rdd = r: RddState | r.size == |r.data| witness RddState([], 0)

  /** `New` stores a copy of `data`. Dafny sequences are values, so later edits
      to the caller's slice or to a collected copy cannot reach the stored
      elements. */
  function New(data: seq<Value>): (r: Rdd)
    ensures Collect(r) == data
    ensures Size(r) == |data|
  {
    RddState(data, |data|)
  }

  function Collect(r: Rdd): (xs: seq<Value>)
    ensures |xs| == Size(r)
  {
    r.data
  }

  /** The number of stored elements. */
  function Size(r: Rdd): (n: nat)
    ensures n == |r.data|
  {
    r.size
  }

  /** How the runtime ran one queue- or chunk-based transformation:
      `owner[i]` is the worker that dequeued job `i` (queue-based operations
      only) and `finish` lists the workers in the order their batches were
      collected. */
  datatype Schedule = Schedule(owner: seq<nat>, finish: seq<nat>)

  /** A schedule `Filter` and `FlatMap` can produce: `cpus` workers share the
      queue of `n` jobs, and every worker reports exactly once. */
  predicate QueueSchedule(s: Schedule, n: nat, cpus: nat)
  {
    && |s.owner| == n
    && (forall i | 0 <= i < n :: s.owner[i] < cpus)
    && Perm(s.finish, cpus)
  }

  /** A schedule `FlatArray` can produce: every chunk worker reports exactly
      once. */
  predicate ChunkSchedule(s: Schedule, n: nat, cpus: nat)
    requires cpus >= 1
  {
    Perm(s.finish, Workers(cpus, n))
  }

  /** What `FlatArray` makes of one element: a `[]T` contributes its members;
      a scalar, an array or a slice of another element type stays whole. An
      element is never among its own members, so "kept whole" and "is not a
      `[]T`" coincide. */
  function Spread(x: Value): (ys: seq<Value>)
    ensures ys == [x] <==> !x.ListV?
    ensures x.ListV? ==> ys == x.items
  {
    if x.ListV? then
      assert x.items != [x] by {
        if |x.items| == 1 {
          assert x.items[0] in x.items;
        }
      }
      x.items
    else [x]
  }

  /** The one-level flattening of a sequence, computed sequentially. */
  function FlattenOnce(xs: seq<Value>): seq<Value>
  {
    Expand(xs, Spread)
  }

  /** What a `Filter` worker appends for one job. */
  function Keep(p: Value -> bool): Value -> seq<Value>
  {
    x => if p(x) then [x] else []
  }

  /** What a `FlatMap` worker appends for one job: `fn` of each member of a
      `[]T`, or `fn` of the whole element otherwise. */
  function SpreadApply(fn: Value -> Value): (g: Value -> seq<Value>)
    ensures forall x: Value :: !x.ListV? ==> g(x) == [fn(x)]
    ensures forall x: Value | x.ListV? :: |g(x)| == |x.items|
    ensures forall x: Value, i | x.ListV? && 0 <= i < |x.items| :: g(x)[i] == fn(x.items[i])
  {
    x => Apply(fn, Spread(x))
  }

  /** `Map`: fails with the context's error when it is done on entry; an empty
      input short-cuts to an empty result; otherwise the collector places each
      result at its job's index, in whatever order results arrive, so the
      output keeps the input's order. */
  method Map(r: Rdd, ctx: Context, fn: Value -> Value, arrival: seq<nat>) returns (res: Result<Rdd>)
    requires Perm(arrival, Size(r))
    ensures ctx.doneAtEntry ==> res == Err(Canceled)
    ensures !ctx.doneAtEntry && Size(r) == 0 ==> res == Ok(New([]))
    ensures !ctx.doneAtEntry && Size(r) > 0 && ctx.cancelledMidway ==> res == Err(Canceled)
    ensures res.Err? ==> res.error == Canceled
    ensures !ctx.doneAtEntry && !ctx.cancelledMidway ==> res.Ok?
    ensures res.Ok? ==> Size(res.value) == Size(r)
    ensures res.Ok? ==> forall i | 0 <= i < Size(r) :: Collect(res.value)[i] == fn(Collect(r)[i])
  {
    if ctx.doneAtEntry {
      return Err(Canceled);
    }
    var n := Size(r);
    if n == 0 {
      return Ok(New([]));
    }
    if ctx.cancelledMidway {
      return Err(Canceled);
    }
    PermBounds(arrival, n);
    var xs := Collect(r);
    // the result buffer; every slot is overwritten below
    var out := xs;
    var k := 0;
    while k < n
      invariant 0 <= k <= n
      invariant |out| == n
      invariant forall j | 0 <= j < k :: out[arrival[j]] == fn(xs[arrival[j]])
    {
      var idx := arrival[k];
      out := out[idx := fn(xs[idx])];
      k := k + 1;
    }
    forall i | 0 <= i < n ensures out[i] == fn(xs[i]) {
      assert i in arrival;
      var j :| 0 <= j < n && arrival[j] == i;
    }
    return Ok(New(out));
  }

  /** `Filter`: the same entry checks as `Map`; then each worker keeps the
      jobs it took that satisfy the predicate, and the collector appends the
      batches in arrival order. As a multiset the result is exactly the
      elements satisfying the predicate; the order is the schedule's. This is
      the corrected call: a cancellation seen mid-call always gives the
      context's error (`FilterAsWritten` is the code's behaviour). */
  function Filter(r: Rdd, ctx: Context, p: Value -> bool, cpus: nat, sched: Schedule): (res: Result<Rdd>)
    requires cpus >= 1
    requires QueueSchedule(sched, Size(r), cpus)
    ensures ctx.doneAtEntry ==> res == Err(Canceled)
    ensures !ctx.doneAtEntry && Size(r) == 0 ==> res == Ok(New([]))
    ensures !ctx.doneAtEntry && Size(r) > 0 && ctx.cancelledMidway ==> res == Err(Canceled)
    ensures res.Err? ==> res.error == Canceled
    ensures !ctx.doneAtEntry && !ctx.cancelledMidway ==> res.Ok?
    ensures res.Ok? ==> forall v ::
      multiset(Collect(res.value))[v] == if p(v) then multiset(Collect(r))[v] else 0
  {
    if ctx.doneAtEntry then Err(Canceled)
    else if Size(r) == 0 then Ok(New([]))
    else if ctx.cancelledMidway then Err(Canceled)
    else
      var xs := Collect(r);
      var outs := WorkerOutputs(xs, sched.owner, cpus, Keep(p));
      var out := Gather(outs, sched.finish);
      WorkerOutputsCover(xs, sched.owner, cpus, Keep(p));
      KeepCounts(xs, p);
      Ok(New(out))
  }

  /** The sequential filter keeps every occurrence of a satisfying value and
      none of the others. */
  lemma {:induction false} KeepCounts(xs: seq<Value>, p: Value -> bool)
    ensures forall v :: multiset(Expand(xs, Keep(p)))[v] == if p(v) then multiset(xs)[v] else 0
    decreases |xs|
  {
    if |xs| > 0 {
      var init := xs[..|xs| - 1];
      KeepCounts(init, p);
      assert xs == init + [xs[|xs| - 1]];
    }
  }

  /** `FlatArray`: the same entry checks; then `min(NumCPU, size)` workers
      each flatten one contiguous chunk, and the collector appends the chunk
      outputs in arrival order. As a multiset the result is the one-level
      flattening of the input. */
  function FlatArray(r: Rdd, ctx: Context, cpus: nat, sched: Schedule): (res: Result<Rdd>)
    requires cpus >= 1
    requires ChunkSchedule(sched, Size(r), cpus)
    ensures ctx.doneAtEntry ==> res == Err(Canceled)
    ensures !ctx.doneAtEntry && Size(r) == 0 ==> res == Ok(New([]))
    ensures !ctx.doneAtEntry && Size(r) > 0 && ctx.cancelledMidway ==> res == Err(Canceled)
    ensures res.Err? ==> res.error == Canceled
    ensures !ctx.doneAtEntry && !ctx.cancelledMidway ==> res.Ok?
    ensures res.Ok? ==> multiset(Collect(res.value)) == multiset(FlattenOnce(Collect(r)))
    ensures res.Ok? ==> Collect(res.value) == Gather(ChunkOutputs(Collect(r), cpus, Spread), sched.finish)
  {
    if ctx.doneAtEntry then Err(Canceled)
    else if Size(r) == 0 then Ok(New([]))
    else if ctx.cancelledMidway then Err(Canceled)
    else
      var xs := Collect(r);
      var out := Gather(ChunkOutputs(xs, cpus, Spread), sched.finish);
      ChunkOutputsInOrder(xs, cpus, Spread);
      Ok(New(out))
  }

  /** When the chunk workers happen to report in chunk order, `FlatArray`'s
      output is exactly the sequential flattening, element for element. */
  lemma FlatArrayInChunkOrder(r: Rdd, ctx: Context, cpus: nat)
    requires cpus >= 1 && !ctx.doneAtEntry && !ctx.cancelledMidway
    ensures ChunkSchedule(Schedule([], Range(Workers(cpus, Size(r)))), Size(r), cpus)
    ensures FlatArray(r, ctx, cpus, Schedule([], Range(Workers(cpus, Size(r))))) == Ok(New(FlattenOnce(Collect(r))))
  {
    var xs := Collect(r);
    GatherInOrder(ChunkOutputs(xs, cpus, Spread));
    ChunkOutputsInOrder(xs, cpus, Spread);
  }

  /** With one CPU there is one chunk, so `FlatArray` returns exactly the
      sequential flattening, whatever the schedule. */
  lemma FlatArraySingleWorker(r: Rdd, ctx: Context, sched: Schedule)
    requires ChunkSchedule(sched, Size(r), 1)
    requires !ctx.doneAtEntry && !ctx.cancelledMidway
    ensures FlatArray(r, ctx, 1, sched) == Ok(New(FlattenOnce(Collect(r))))
  {
    var xs := Collect(r);
    if |xs| > 0 {
      var outs := ChunkOutputs(xs, 1, Spread);
      assert Workers(1, |xs|) == 1;
      PermBounds(sched.finish, 1);
      assert sched.finish == [0];
      assert Pick(outs, sched.finish) == [outs[0]];
      ConcatSingle(outs[0]);
      assert xs[ChunkStart(1, |xs|, 0)..ChunkEnd(1, |xs|, 0)] == xs;
    }
  }

  /** `FlatMap`: the same entry checks; then the queue workers apply `fn` to
      each member of a `[]T` job or to the whole of any other job, and the
      collector appends their batches in arrival order. As a multiset the
      result is `fn` mapped over the one-level flattening. This is the
      corrected call: a cancellation seen mid-call always gives the context's
      error (`FlatMapAsWritten` is the code's behaviour). */
  function FlatMap(r: Rdd, ctx: Context, fn: Value -> Value, cpus: nat, sched: Schedule): (res: Result<Rdd>)
    requires cpus >= 1
    requires QueueSchedule(sched, Size(r), cpus)
    ensures ctx.doneAtEntry ==> res == Err(Canceled)
    ensures !ctx.doneAtEntry && Size(r) == 0 ==> res == Ok(New([]))
    ensures !ctx.doneAtEntry && Size(r) > 0 && ctx.cancelledMidway ==> res == Err(Canceled)
    ensures res.Err? ==> res.error == Canceled
    ensures !ctx.doneAtEntry && !ctx.cancelledMidway ==> res.Ok?
    ensures res.Ok? ==> multiset(Collect(res.value)) == multiset(Apply(fn, FlattenOnce(Collect(r))))
  {
    if ctx.doneAtEntry then Err(Canceled)
    else if Size(r) == 0 then Ok(New([]))
    else if ctx.cancelledMidway then Err(Canceled)
    else
      var xs := Collect(r);
      var outs := WorkerOutputs(xs, sched.owner, cpus, SpreadApply(fn));
      var out := Gather(outs, sched.finish);
      WorkerOutputsCover(xs, sched.owner, cpus, SpreadApply(fn));
      ApplyExpand(xs, Spread, fn, SpreadApply(fn));
      Ok(New(out))
  }

  /** How a queue-based call (`Filter`, `FlatMap`) that meets a cancellation
      can end. The job sender checks the context before each send; once it
      sees the cancellation it closes the queue, after `sent` jobs. The
      workers may still drain that queue and report, and the collector may
      pick their batches rather than the cancellation. `errorSeen` says that
      some worker or the collector picked the cancellation instead. Without a
      cancellation every job is sent and no error is seen. */
  datatype QueueRun = QueueRun(sent: nat, errorSeen: bool)

  predicate QueueRunValid(run: QueueRun, n: nat, ctx: Context)
  {
    && run.sent <= n
    && (!ctx.cancelledMidway ==> run.sent == n && !run.errorSeen)
  }

  /** `Filter` as the code runs it: a cancellation seen mid-call either
      surfaces as the context's error or, when the collector takes the
      workers' batches instead, as a success that filtered only the jobs
      sent before the queue was closed. */
  function FilterAsWritten(r: Rdd, ctx: Context, p: Value -> bool, cpus: nat, sched: Schedule, run: QueueRun): (res: Result<Rdd>)
    requires cpus >= 1
    requires QueueRunValid(run, Size(r), ctx)
    requires QueueSchedule(sched, run.sent, cpus)
    ensures ctx.doneAtEntry ==> res == Err(Canceled)
    ensures !ctx.doneAtEntry && Size(r) == 0 ==> res == Ok(New([]))
    ensures !ctx.doneAtEntry && Size(r) > 0 && run.errorSeen ==> res == Err(Canceled)
    ensures res.Err? ==> res.error == Canceled
    ensures !ctx.doneAtEntry && (Size(r) == 0 || !run.errorSeen) ==> res.Ok?
    ensures res.Ok? ==> forall v ::
      multiset(Collect(res.value))[v] == if p(v) then multiset(Collect(r)[..run.sent])[v] else 0
    ensures res.Ok? ==> forall v ::
      multiset(Collect(res.value))[v] <= if p(v) then multiset(Collect(r))[v] else 0
  {
    if ctx.doneAtEntry then Err(Canceled)
    else if Size(r) == 0 then Ok(New([]))
    else if run.errorSeen then Err(Canceled)
    else
      var xs := Collect(r);
      var queued := xs[..run.sent];
      var outs := WorkerOutputs(queued, sched.owner, cpus, Keep(p));
      var out := Gather(outs, sched.finish);
      WorkerOutputsCover(queued, sched.owner, cpus, Keep(p));
      KeepCounts(queued, p);
      KeepCounts(xs, p);
      ExpandPrefix(xs, run.sent, Keep(p));
      Ok(New(out))
  }

  /** Without a cancellation the code's `Filter` is the modelled one. */
  lemma FilterAsWrittenAgrees(r: Rdd, ctx: Context, p: Value -> bool, cpus: nat, sched: Schedule, run: QueueRun)
    requires cpus >= 1 && !ctx.cancelledMidway
    requires QueueRunValid(run, Size(r), ctx)
    requires QueueSchedule(sched, run.sent, cpus)
    ensures QueueSchedule(sched, Size(r), cpus)
    ensures FilterAsWritten(r, ctx, p, cpus, sched, run) == Filter(r, ctx, p, cpus, sched)
  {
    assert Collect(r)[..run.sent] == Collect(r);
  }

  /** The predicate that keeps everything. */
  predicate KeepAll(v: Value)
  {
    true
  }

  /** The identity transformation. */
  function Identity(v: Value): Value
  {
    v
  }

  /** Cancelled after one of two jobs was sent, the code's `Filter` can
      report success holding only the first element, where a cancelled call
      should report the context's error. */
  lemma FilterPartialSuccess()
    ensures QueueRunValid(QueueRun(1, false), 2, Context(false, true))
    ensures QueueSchedule(Schedule([0], [0]), 1, 1)
    ensures QueueSchedule(Schedule([0, 0], [0]), 2, 1)
    ensures FilterAsWritten(New([IntV(1), IntV(2)]), Context(false, true), KeepAll, 1,
                            Schedule([0], [0]), QueueRun(1, false)) == Ok(New([IntV(1)]))
    ensures Filter(New([IntV(1), IntV(2)]), Context(false, true), KeepAll, 1,
                   Schedule([0, 0], [0])) == Err(Canceled)
  {
    assert Range(1) == [0];
    var queued := [IntV(1), IntV(2)][..1];
    assert queued == [IntV(1)];
    var f := Keep(KeepAll);
    SingleJobOutputs(IntV(1), f);
    assert f(IntV(1)) == [IntV(1)] by {
      assert KeepAll(IntV(1));
    }
    var outs := WorkerOutputs(queued, [0], 1, f);
    assert outs == [[IntV(1)]];
    SingleBatchGather([IntV(1)]);
    assert Gather(outs, [0]) == [IntV(1)];
  }

  /** One job taken by the only worker: that worker's batch is the job's
      output. */
  lemma SingleJobOutputs(x: Value, f: Value -> seq<Value>)
    ensures WorkerOutputs([x], [0], 1, f) == [f(x)]
  {
    assert [x][..0] == [] && [0][..0] == [];
    var none := WorkerOutputs([], [], 1, f);
    assert none == NoBatches(1);
    assert none[0] == [];
    var one := WorkerOutputs([x], [0], 1, f);
    assert one == none[0 := none[0] + f(x)];
    assert one[0] == f(x);
  }

  /** One batch gathered from one worker. */
  lemma SingleBatchGather(b: seq<Value>)
    ensures Perm([0], 1)
    ensures Gather([b], [0]) == b
  {
    assert Range(1) == [0];
    assert Pick([b], [0]) == [b];
    ConcatSingle(b);
  }

  /** `FlatMap` as the code runs it: as for `FilterAsWritten`, a cancellation
      seen mid-call can end in a success that holds `fn` of only the jobs
      sent before the queue was closed. */
  function FlatMapAsWritten(r: Rdd, ctx: Context, fn: Value -> Value, cpus: nat, sched: Schedule, run: QueueRun): (res: Result<Rdd>)
    requires cpus >= 1
    requires QueueRunValid(run, Size(r), ctx)
    requires QueueSchedule(sched, run.sent, cpus)
    ensures ctx.doneAtEntry ==> res == Err(Canceled)
    ensures !ctx.doneAtEntry && Size(r) == 0 ==> res == Ok(New([]))
    ensures !ctx.doneAtEntry && Size(r) > 0 && run.errorSeen ==> res == Err(Canceled)
    ensures res.Err? ==> res.error == Canceled
    ensures !ctx.doneAtEntry && (Size(r) == 0 || !run.errorSeen) ==> res.Ok?
    ensures res.Ok? ==>
      multiset(Collect(res.value)) == multiset(Apply(fn, FlattenOnce(Collect(r)[..run.sent])))
    ensures res.Ok? ==>
      multiset(Collect(res.value)) <= multiset(Apply(fn, FlattenOnce(Collect(r))))
  {
    if ctx.doneAtEntry then Err(Canceled)
    else if Size(r) == 0 then Ok(New([]))
    else if run.errorSeen then Err(Canceled)
    else
      var xs := Collect(r);
      var queued := xs[..run.sent];
      var outs := WorkerOutputs(queued, sched.owner, cpus, SpreadApply(fn));
      var out := Gather(outs, sched.finish);
      WorkerOutputsCover(queued, sched.owner, cpus, SpreadApply(fn));
      ApplyExpand(queued, Spread, fn, SpreadApply(fn));
      ApplyExpand(xs, Spread, fn, SpreadApply(fn));
      ExpandPrefix(xs, run.sent, SpreadApply(fn));
      Ok(New(out))
  }

  /** Without a cancellation the code's `FlatMap` is the modelled one. */
  lemma FlatMapAsWrittenAgrees(r: Rdd, ctx: Context, fn: Value -> Value, cpus: nat, sched: Schedule, run: QueueRun)
    requires cpus >= 1 && !ctx.cancelledMidway
    requires QueueRunValid(run, Size(r), ctx)
    requires QueueSchedule(sched, run.sent, cpus)
    ensures QueueSchedule(sched, Size(r), cpus)
    ensures FlatMapAsWritten(r, ctx, fn, cpus, sched, run) == FlatMap(r, ctx, fn, cpus, sched)
  {
    assert Collect(r)[..run.sent] == Collect(r);
  }

  /** Cancelled after one of two jobs was sent, the code's `FlatMap` can
      report success holding `fn` of the first element only. */
  lemma FlatMapPartialSuccess()
    ensures QueueSchedule(Schedule([0], [0]), 1, 1)
    ensures FlatMapAsWritten(New([IntV(1), IntV(2)]), Context(false, true), Identity, 1,
                             Schedule([0], [0]), QueueRun(1, false)) == Ok(New([IntV(1)]))
    ensures FlatMap(New([IntV(1), IntV(2)]), Context(false, true), Identity, 1,
                    Schedule([0, 0], [0])) == Err(Canceled)
  {
    assert Range(1) == [0];
    var queued := [IntV(1), IntV(2)][..1];
    assert queued == [IntV(1)];
    var f := SpreadApply(Identity);
    SingleJobOutputs(IntV(1), f);
    assert f(IntV(1)) == [IntV(1)] by {
      assert !IntV(1).ListV? && Identity(IntV(1)) == IntV(1);
    }
    var outs := WorkerOutputs(queued, [0], 1, f);
    assert outs == [[IntV(1)]];
    SingleBatchGather([IntV(1)]);
    assert Gather(outs, [0]) == [IntV(1)];
  }

  /** Without nested `[]T` elements, flattening changes nothing. */
  lemma {:induction false} FlattenWithoutLists(xs: seq<Value>)
    requires forall i | 0 <= i < |xs| :: !xs[i].ListV?
    ensures FlattenOnce(xs) == xs
    decreases |xs|
  {
    if |xs| > 0 {
      FlattenWithoutLists(xs[..|xs| - 1]);
      assert xs == xs[..|xs| - 1] + [xs[|xs| - 1]];
    }
  }

  /** Two spliced members in a row. */
  lemma FlattenPair(x: Value, y: Value)
    ensures FlattenOnce([x, y]) == Spread(x) + Spread(y)
  {
    var xy := [x, y];
    assert xy[..1] == [x] && [x][..0] == [];
    assert Expand([x], Spread) == Expand([], Spread) + Spread(x);
    assert Expand(xy, Spread) == Expand([x], Spread) + Spread(y);
  }

  /** `[[1, 2, 3, 4, 5], [6, 7, 8, 9, 10]]` flattens to `[1, …, 10]`. */
  lemma FlattenTwoLists()
    ensures FlattenOnce([ListV([IntV(1), IntV(2), IntV(3), IntV(4), IntV(5)]),
                         ListV([IntV(6), IntV(7), IntV(8), IntV(9), IntV(10)])])
         == [IntV(1), IntV(2), IntV(3), IntV(4), IntV(5), IntV(6), IntV(7), IntV(8), IntV(9), IntV(10)]
  {
    FlattenPair(ListV([IntV(1), IntV(2), IntV(3), IntV(4), IntV(5)]),
                ListV([IntV(6), IntV(7), IntV(8), IntV(9), IntV(10)]));
  }

  /** In `[[1, 2], 3, [4, 5]]` the scalar passes through between the spliced
      members, giving five elements. */
  lemma FlattenMixed()
    ensures FlattenOnce([ListV([IntV(1), IntV(2)]), IntV(3), ListV([IntV(4), IntV(5)])])
         == [IntV(1), IntV(2), IntV(3), IntV(4), IntV(5)]
  {
    var b := [ListV([IntV(1), IntV(2)]), IntV(3), ListV([IntV(4), IntV(5)])];
    FlattenPair(b[0], b[1]);
    assert b[..2] == [b[0], b[1]];
    assert FlattenOnce(b) == FlattenOnce(b[..2]) + Spread(b[2]);
  }
}

=== FILE: scheduler.dfy ===
/** The fan-out/fan-in arithmetic of the transformation engine, stated
    sequentially.

    - `Map` and `FlatArray` size their worker pool as `min(NumCPU, size)`;
      `FlatArray` hands worker `k` the contiguous chunk
      `[k * c, (k + 1) * c)`, the last chunk running to the end.
    - `Filter` and `FlatMap` start `NumCPU` workers that dequeue jobs from one
      shared queue; which worker takes which job is decided by the runtime and
      is given here as an `owner` assignment.
    - The collector appends each worker's batch as it arrives; the arrival order
      is given as a permutation of the workers. */
module Scheduler {
  import opened Sequences

  /** rdd.go's worker count for `Map` and `FlatArray`: `NumCPU`, or the input
      size when the integer chunk size `size / NumCPU` comes out as zero. */
  function Workers(cpus: nat, size: nat): (w: nat)
    requires cpus >= 1
    ensures w == (if cpus <= size then cpus else size)
    ensures size > 0 ==> 1 <= w <= size
  {
    if size / cpus == 0 then size else cpus
  }

  /** The chunk length: `size / NumCPU`, or 1 when that is zero. */
  function ChunkSize(cpus: nat, size: nat): (c: nat)
    requires cpus >= 1
    ensures c >= 1
  {
    if size / cpus == 0 then 1 else size / cpus
  }

  function ChunkStart(cpus: nat, size: nat, k: nat): nat
    requires cpus >= 1
  {
    k * ChunkSize(cpus, size)
  }

  /** Every chunk is `ChunkSize` long except the last, which ends at `size`. */
  function ChunkEnd(cpus: nat, size: nat, k: nat): nat
    requires cpus >= 1
  {
    if k + 1 == Workers(cpus, size) then size else (k + 1) * ChunkSize(cpus, size)
  }

  lemma MulMono(a: nat, b: nat, c: nat)
    requires a <= b
    ensures a * c <= b * c
  {
  }

  /** The workers never read past the input: all `Workers` chunks fit. */
  lemma ChunksFit(cpus: nat, size: nat)
    requires cpus >= 1
    ensures Workers(cpus, size) * ChunkSize(cpus, size) <= size
  {
    var c := size / cpus;
    if c != 0 {
      assert cpus * c <= size;
    }
  }

  /** For a non-empty input the chunks are non-empty, contiguous, start at 0,
      end at `size`, and come in increasing order, so they are pairwise
      disjoint and cover `[0, size)`. */
  lemma ChunksPartition(cpus: nat, size: nat)
    requires cpus >= 1 && size > 0
    ensures ChunkStart(cpus, size, 0) == 0
    ensures ChunkEnd(cpus, size, Workers(cpus, size) - 1) == size
    ensures forall k | 0 <= k < Workers(cpus, size) - 1 ::
      ChunkEnd(cpus, size, k) == ChunkStart(cpus, size, k + 1)
    ensures forall k | 0 <= k < Workers(cpus, size) ::
      ChunkStart(cpus, size, k) < ChunkEnd(cpus, size, k) <= size
    ensures forall k1, k2 | 0 <= k1 < k2 < Workers(cpus, size) ::
      ChunkEnd(cpus, size, k1) <= ChunkStart(cpus, size, k2)
  {
    forall k | 0 <= k < Workers(cpus, size)
      ensures ChunkStart(cpus, size, k) < ChunkEnd(cpus, size, k) <= size
    {
      ChunkInside(cpus, size, k);
    }
    forall k1, k2 | 0 <= k1 < k2 < Workers(cpus, size)
      ensures ChunkEnd(cpus, size, k1) <= ChunkStart(cpus, size, k2)
    {
      MulMono(k1 + 1, k2, ChunkSize(cpus, size));
    }
  }

  /** Chunk `k` is non-empty and ends inside the input. */
  lemma ChunkInside(cpus: nat, size: nat, k: nat)
    requires cpus >= 1 && size > 0 && k < Workers(cpus, size)
    ensures ChunkStart(cpus, size, k) < ChunkEnd(cpus, size, k) <= size
  {
    var w, c := Workers(cpus, size), ChunkSize(cpus, size);
    ChunksFit(cpus, size);
    assert (w - 1) * c + c == w * c;
    assert k * c + c == (k + 1) * c;
    if k + 1 < w {
      MulMono(k + 1, w - 1, c);
    } else {
      MulMono(k, w - 1, c);
    }
  }

  /** The chunk holding index `i`. */
  function ChunkOf(cpus: nat, size: nat, i: nat): nat
    requires cpus >= 1 && i < size
  {
    var q := i / ChunkSize(cpus, size);
    if q < Workers(cpus, size) then q else Workers(cpus, size) - 1
  }

  lemma DivBounds(i: nat, c: nat)
    requires c >= 1
    ensures (i / c) * c <= i < (i / c) * c + c
  {
  }

  /** Every index of the input lies in chunk `ChunkOf(i)`... */
  lemma ChunkOfContains(cpus: nat, size: nat, i: nat)
    requires cpus >= 1 && i < size
    ensures ChunkOf(cpus, size, i) < Workers(cpus, size)
    ensures ChunkStart(cpus, size, ChunkOf(cpus, size, i)) <= i < ChunkEnd(cpus, size, ChunkOf(cpus, size, i))
  {
    var w, c := Workers(cpus, size), ChunkSize(cpus, size);
    var q := i / c;
    DivBounds(i, c);
    ChunksFit(cpus, size);
    var k := ChunkOf(cpus, size, i);
    if q < w {
      assert k == q;
      assert ChunkStart(cpus, size, k) == q * c;
      if k + 1 < w {
        assert ChunkEnd(cpus, size, k) == (q + 1) * c == q * c + c;
      } else {
        assert ChunkEnd(cpus, size, k) == size;
      }
    } else {
      assert k == w - 1;
      MulMono(w - 1, q, c);
      assert ChunkStart(cpus, size, k) == (w - 1) * c <= q * c;
      assert ChunkEnd(cpus, size, k) == size;
    }
  }

  /** ...and in no other. */
  lemma ChunkOfUnique(cpus: nat, size: nat, i: nat, k: nat)
    requires cpus >= 1 && i < size
    requires k < Workers(cpus, size) && ChunkStart(cpus, size, k) <= i < ChunkEnd(cpus, size, k)
    ensures k == ChunkOf(cpus, size, i)
  {
    var k0 := ChunkOf(cpus, size, i);
    ChunkOfContains(cpus, size, i);
    // chunks in increasing order do not overlap
    ChunksPartition(cpus, size);
  }

  /** What each `FlatArray` worker produces: its chunk, expanded with `f`. */
  function ChunkOutputs<U>(xs: seq<U>, cpus: nat, f: U -> seq<U>): (outs: seq<seq<U>>)
    requires cpus >= 1
    ensures |outs| == Workers(cpus, |xs|)
    ensures forall k | 0 <= k < |outs| ::
      && ChunkStart(cpus, |xs|, k) <= ChunkEnd(cpus, |xs|, k) <= |xs|
      && outs[k] == Expand(xs[ChunkStart(cpus, |xs|, k)..ChunkEnd(cpus, |xs|, k)], f)
  {
    var n := |xs|;
    if n == 0 then []
    else
      ChunksPartition(cpus, n);
      seq(Workers(cpus, n), k requires 0 <= k < Workers(cpus, n) =>
        Expand(xs[ChunkStart(cpus, n, k)..ChunkEnd(cpus, n, k)], f))
  }

  /** Gathered in chunk order, the worker outputs are exactly the sequential
      expansion of the input. */
  lemma ChunkOutputsInOrder<U>(xs: seq<U>, cpus: nat, f: U -> seq<U>)
    requires cpus >= 1
    ensures Concat(ChunkOutputs(xs, cpus, f)) == Expand(xs, f)
  {
    var n := |xs|;
    if n > 0 {
      var outs := ChunkOutputs(xs, cpus, f);
      var w := Workers(cpus, n);
      ChunksPartition(cpus, n);
      ChunkPrefix(xs, cpus, f, outs, w);
      assert outs[..w] == outs;
      assert xs[..ChunkEnd(cpus, n, w - 1)] == xs;
    }
  }

  /** The bounds of chunk `k`, and its meeting point with chunk `k + 1`. */
  lemma ChunkBounds(cpus: nat, size: nat, k: nat)
    requires cpus >= 1 && size > 0 && k < Workers(cpus, size)
    ensures ChunkStart(cpus, size, k) < ChunkEnd(cpus, size, k) <= size
    ensures k == 0 ==> ChunkStart(cpus, size, k) == 0
    ensures k > 0 ==> ChunkEnd(cpus, size, k - 1) == ChunkStart(cpus, size, k)
  {
    ChunksPartition(cpus, size);
  }

  /** `outs` holds, for every chunk, the expansion of that chunk. */
  ghost predicate ChunkExpansions<U>(xs: seq<U>, cpus: nat, f: U -> seq<U>, outs: seq<seq<U>>)
    requires cpus >= 1
  {
    && |outs| == Workers(cpus, |xs|)
    && forall k | 0 <= k < |outs| ::
         && ChunkStart(cpus, |xs|, k) <= ChunkEnd(cpus, |xs|, k) <= |xs|
         && outs[k] == Expand(xs[ChunkStart(cpus, |xs|, k)..ChunkEnd(cpus, |xs|, k)], f)
  }

  /** The first `m` chunk outputs together expand the input up to the end of
      chunk `m - 1`. */
  lemma {:induction false} ChunkPrefix<U>(xs: seq<U>, cpus: nat, f: U -> seq<U>, outs: seq<seq<U>>, m: nat)
    requires cpus >= 1 && |xs| > 0
    requires ChunkExpansions(xs, cpus, f, outs)
    requires 1 <= m <= |outs|
    ensures ChunkEnd(cpus, |xs|, m - 1) <= |xs|
    ensures Concat(outs[..m]) == Expand(xs[..ChunkEnd(cpus, |xs|, m - 1)], f)
    decreases m
  {
    var n := |xs|;
    ChunkBounds(cpus, n, m - 1);
    var lo, hi := ChunkStart(cpus, n, m - 1), ChunkEnd(cpus, n, m - 1);
    assert outs[m - 1] == Expand(xs[lo..hi], f);
    if m == 1 {
      assert outs[..0] == [] && xs[..lo] == [];
    } else {
      ChunkPrefix(xs, cpus, f, outs, m - 1);
    }
    ConcatExpandStep(outs, xs, f, m, lo, hi);
  }

  /** Which jobs worker `w` dequeued, in queue order: the jobs whose owner is
      `w`, so never more of any value than the queue held. */
  function Batch<U>(xs: seq<U>, owner: seq<nat>, w: nat): (b: seq<U>)
    requires |owner| == |xs|
    ensures multiset(b) <= multiset(xs)
  {
    if |xs| == 0 then []
    else
      var n := |xs| - 1;
      assert xs == xs[..n] + [xs[n]];
      Batch(xs[..n], owner[..n], w) + (if owner[n] == w then [xs[n]] else [])
  }

  /** The batches the `n` queue workers send back: job `i` is taken by worker
      `owner[i]`, which appends `f` of it to its local result. */
  function WorkerOutputs<U>(xs: seq<U>, owner: seq<nat>, n: nat, f: U -> seq<U>): (outs: seq<seq<U>>)
    requires |owner| == |xs|
    requires forall i | 0 <= i < |owner| :: owner[i] < n
    ensures |outs| == n
  {
    if |xs| == 0 then NoBatches(n)
    else
      var m := |xs| - 1;
      var outs := WorkerOutputs(xs[..m], owner[..m], n, f);
      outs[owner[m] := outs[owner[m]] + f(xs[m])]
  }

  /** Each worker's batch is the expansion of the jobs it took, in the order the
      queue handed them out. */
  lemma {:induction false} WorkerKeepsQueueOrder<U>(xs: seq<U>, owner: seq<nat>, n: nat, f: U -> seq<U>, w: nat)
    requires |owner| == |xs|
    requires forall i | 0 <= i < |owner| :: owner[i] < n
    requires w < n
    ensures WorkerOutputs(xs, owner, n, f)[w] == Expand(Batch(xs, owner, w), f)
    decreases |xs|
  {
    if |xs| > 0 {
      var m := |xs| - 1;
      WorkerKeepsQueueOrder(xs[..m], owner[..m], n, f, w);
      var b := Batch(xs[..m], owner[..m], w);
      var prev := WorkerOutputs(xs[..m], owner[..m], n, f);
      assert prev[w] == Expand(b, f);
      if owner[m] == w {
        assert Batch(xs, owner, w) == b + [xs[m]];
        assert (b + [xs[m]])[..|b|] == b;
        assert WorkerOutputs(xs, owner, n, f)[w] == prev[w] + f(xs[m]);
      } else {
        assert Batch(xs, owner, w) == b + [] == b;
        assert WorkerOutputs(xs, owner, n, f)[w] == prev[w];
      }
    }
  }

  /** However the jobs are spread over the workers, the batches together hold
      the multiset of the sequential expansion. */
  lemma {:induction false} WorkerOutputsCover<U>(xs: seq<U>, owner: seq<nat>, n: nat, f: U -> seq<U>)
    requires |owner| == |xs|
    requires forall i | 0 <= i < |owner| :: owner[i] < n
    ensures multiset(Concat(WorkerOutputs(xs, owner, n, f))) == multiset(Expand(xs, f))
    decreases |xs|
  {
    if |xs| == 0 {
      EmptyBatches<U>(n);
    } else {
      var m := |xs| - 1;
      WorkerOutputsCover(xs[..m], owner[..m], n, f);
      ConcatUpdateAppend(WorkerOutputs(xs[..m], owner[..m], n, f), owner[m], f(xs[m]));
    }
  }

  /** `n` workers that have produced nothing yet. */
  function NoBatches<U>(n: nat): (bs: seq<seq<U>>)
    ensures |bs| == n
  {
    seq(n, _ => [])
  }

  lemma {:induction false} EmptyBatches<U>(n: nat)
    ensures Concat(NoBatches<U>(n)) == []
    decreases n
  {
    if n > 0 {
      EmptyBatches<U>(n - 1);
      assert NoBatches<U>(n)[..n - 1] == NoBatches<U>(n - 1);
    }
  }

  /** The collector's output: the batches appended in arrival order `finish`. */
  function Gather<U>(outs: seq<seq<U>>, finish: seq<nat>): (r: seq<U>)
    requires Perm(finish, |outs|)
    ensures multiset(r) == multiset(Concat(outs))
  {
    GatherPermuted(outs, finish);
    Concat(Pick(outs, finish))
  }
}

=== FILE: sequences.dfy ===
/** Sequence facts the fan-in proofs rest on: concatenating a list of batches,
    expanding every element into a batch of its own, picking batches in a
    permuted order, and the multiset laws that make the arrival order of
    batches irrelevant. */
module Sequences {

  /** The batches laid end to end. */
  function Concat<T>(bs: seq<seq<T>>): seq<T>
  {
    if |bs| == 0 then [] else Concat(bs[..|bs| - 1]) + bs[|bs| - 1]
  }

  /** Every element replaced by the batch `f` makes of it, in order. */
  function Expand<T, U>(xs: seq<T>, f: T -> seq<U>): seq<U>
  {
    if |xs| == 0 then [] else Expand(xs[..|xs| - 1], f) + f(xs[|xs| - 1])
  }

  /** `f` applied to every element, position by position. */
  function Apply<T, U>(f: T -> U, xs: seq<T>): (ys: seq<U>)
    ensures |ys| == |xs|
    ensures forall i | 0 <= i < |xs| :: ys[i] == f(xs[i])
  {
    seq(|xs|, i requires 0 <= i < |xs| => f(xs[i]))
  }

  /** The indices 0, 1, …, n - 1. */
  function Range(n: nat): (r: seq<nat>)
    ensures |r| == n
    ensures forall i | 0 <= i < n :: r[i] == i
  {
    seq(n, i => i)
  }

  /** `order` lists every index below `n` exactly once. */
  predicate Perm(order: seq<nat>, n: nat)
  {
    multiset(order) == multiset(Range(n))
  }

  /** The items at the positions `order` names, in that order. */
  function Pick<T>(items: seq<T>, order: seq<nat>): (r: seq<T>)
    requires forall k | 0 <= k < |order| :: order[k] < |items|
    ensures |r| == |order|
    ensures forall k | 0 <= k < |order| :: r[k] == items[order[k]]
  {
    seq(|order|, k requires 0 <= k < |order| => items[order[k]])
  }

  /** A permutation is as long as the range it permutes and stays below it. */
  lemma PermBounds(order: seq<nat>, n: nat)
    requires Perm(order, n)
    ensures |order| == n
    ensures forall k | 0 <= k < |order| :: order[k] < n
    ensures forall i | 0 <= i < n :: i in order
  {
    assert |order| == |multiset(order)| == |multiset(Range(n))| == n;
    forall k | 0 <= k < |order| ensures order[k] < n {
      assert order[k] in multiset(order);
    }
    forall i | 0 <= i < n ensures i in order {
      assert Range(n)[i] == i;
      assert i in multiset(Range(n));
    }
  }

  lemma {:induction false} ConcatAppend<T>(a: seq<seq<T>>, b: seq<seq<T>>)
    ensures Concat(a + b) == Concat(a) + Concat(b)
    decreases |b|
  {
    if |b| == 0 {
      assert a + b == a;
    } else {
      var init, y := b[..|b| - 1], b[|b| - 1];
      ConcatAppend(a, init);
      assert (a + b)[..|a + b| - 1] == a + init;
      assert (a + b)[|a + b| - 1] == y;
      var ca, ci := Concat(a), Concat(init);
      assert Concat(a + b) == (ca + ci) + y;
      assert Concat(b) == ci + y;
      assert (ca + ci) + y == ca + (ci + y);
    }
  }

  lemma {:induction false} ExpandAppend<T, U>(a: seq<T>, b: seq<T>, f: T -> seq<U>)
    ensures Expand(a + b, f) == Expand(a, f) + Expand(b, f)
    decreases |b|
  {
    if |b| == 0 {
      assert a + b == a;
    } else {
      var init, y := b[..|b| - 1], b[|b| - 1];
      ExpandAppend(a, init, f);
      assert (a + b)[..|a + b| - 1] == a + init;
      assert (a + b)[|a + b| - 1] == y;
      var ea, ei := Expand(a, f), Expand(init, f);
      assert Expand(a + b, f) == (ea + ei) + f(y);
      assert Expand(b, f) == ei + f(y);
      assert (ea + ei) + f(y) == ea + (ei + f(y));
    }
  }

  /** Expanding and then mapping is expanding with the mapped batches. */
  lemma {:induction false} ApplyExpand<T, U, V>(xs: seq<T>, f: T -> seq<U>, g: U -> V, h: T -> seq<V>)
    requires forall x :: h(x) == Apply(g, f(x))
    ensures Apply(g, Expand(xs, f)) == Expand(xs, h)
    decreases |xs|
  {
    if |xs| > 0 {
      var init := xs[..|xs| - 1];
      ApplyExpand(init, f, g, h);
      assert Apply(g, Expand(init, f) + f(xs[|xs| - 1]))
          == Apply(g, Expand(init, f)) + Apply(g, f(xs[|xs| - 1]));
    }
  }

  /** Expanding a prefix yields no element more often than expanding the
      whole sequence. */
  lemma ExpandPrefix<T, U>(xs: seq<T>, k: nat, f: T -> seq<U>)
    requires k <= |xs|
    ensures multiset(Expand(xs[..k], f)) <= multiset(Expand(xs, f))
  {
    assert xs == xs[..k] + xs[k..];
    ExpandAppend(xs[..k], xs[k..], f);
  }

  /** Taking batch `j` out removes exactly its elements from the multiset of
      all elements. */
  lemma ConcatRemove<T>(bs: seq<seq<T>>, j: nat)
    requires j < |bs|
    ensures multiset(Concat(bs)) == multiset(Concat(bs[..j] + bs[j + 1..])) + multiset(bs[j])
  {
    var left, post := bs[..j + 1], bs[j + 1..];
    var pre, x := bs[..j], bs[j];
    assert left == pre + [x];
    assert bs == left + post;
    ConcatAppend(left, post);
    ConcatAppend(pre, [x]);
    ConcatSingle(x);
    ConcatAppend(pre, post);
    var cp, cq := Concat(pre), Concat(post);
    assert Concat(bs) == (cp + x) + cq;
    assert multiset(Concat(bs)) == multiset(cp) + multiset(x) + multiset(cq);
    assert multiset(Concat(pre + post)) == multiset(cp) + multiset(cq);
  }

  /** One more block, the expansion of the next slice, extends an expanded
      prefix to the end of that slice. */
  lemma ConcatExpandStep<T, U>(outs: seq<seq<U>>, xs: seq<T>, f: T -> seq<U>, m: nat, lo: nat, hi: nat)
    requires 1 <= m <= |outs| && lo <= hi <= |xs|
    requires Concat(outs[..m - 1]) == Expand(xs[..lo], f)
    requires outs[m - 1] == Expand(xs[lo..hi], f)
    ensures Concat(outs[..m]) == Expand(xs[..hi], f)
  {
    assert outs[..m][..m - 1] == outs[..m - 1];
    assert xs[..hi] == xs[..lo] + xs[lo..hi];
    ExpandAppend(xs[..lo], xs[lo..hi], f);
  }

  /** Two blocks laid end to end. */
  lemma ConcatPair<T>(a: seq<T>, b: seq<T>)
    ensures Concat([a, b]) == a + b
  {
    assert [a, b][..1] == [a];
    ConcatSingle(a);
  }

  lemma ConcatSingle<T>(x: seq<T>)
    ensures Concat([x]) == x
  {
    assert [x][..0] == [];
  }

  /** Reordering the batches does not change the multiset of their elements. */
  lemma {:induction false} ConcatRespectsMultiset<T>(a: seq<seq<T>>, b: seq<seq<T>>)
    requires multiset(a) == multiset(b)
    ensures multiset(Concat(a)) == multiset(Concat(b))
    decreases |a|
  {
    if |a| == 0 {
      assert |b| == |multiset(b)| == 0;
    } else {
      var i := |a| - 1;
      var last := a[i];
      assert last in multiset(b);
      var j :| 0 <= j < |b| && b[j] == last;
      RemoveAt(a, i);
      RemoveAt(b, j);
      ConcatRespectsMultiset(a[..i] + a[i + 1..], b[..j] + b[j + 1..]);
      ConcatRemove(a, i);
      ConcatRemove(b, j);
    }
  }

  lemma PickAppend<T>(items: seq<T>, a: seq<nat>, b: seq<nat>)
    requires forall k | 0 <= k < |a| :: a[k] < |items|
    requires forall k | 0 <= k < |b| :: b[k] < |items|
    ensures forall k | 0 <= k < |a + b| :: (a + b)[k] < |items|
    ensures Pick(items, a + b) == Pick(items, a) + Pick(items, b)
  {
  }

  /** Dropping position `j` removes one copy of the dropped element. */
  lemma RemoveAt<T>(s: seq<T>, j: nat)
    requires j < |s|
    ensures s == s[..j] + [s[j]] + s[j + 1..]
    ensures multiset(s[..j] + s[j + 1..]) == multiset(s) - multiset{s[j]}
  {
    assert s == s[..j] + [s[j]] + s[j + 1..];
    assert multiset(s) == multiset(s[..j]) + multiset{s[j]} + multiset(s[j + 1..]);
  }

  lemma PickRemove<T>(items: seq<T>, o: seq<nat>, j: nat)
    requires forall k | 0 <= k < |o| :: o[k] < |items|
    requires j < |o|
    ensures multiset(Pick(items, o))
         == multiset(Pick(items, o[..j] + o[j + 1..])) + multiset{items[o[j]]}
  {
    var pre, post := o[..j], o[j + 1..];
    assert o == pre + [o[j]] + post;
    PickAppend(items, pre, [o[j]]);
    PickAppend(items, pre + [o[j]], post);
    PickAppend(items, pre, post);
  }

  /** Picking along two orders with the same multiset of indices picks the same
      multiset of items. */
  lemma {:induction false} PickRespectsMultiset<T>(items: seq<T>, o1: seq<nat>, o2: seq<nat>)
    requires forall k | 0 <= k < |o1| :: o1[k] < |items|
    requires multiset(o1) == multiset(o2)
    ensures forall k | 0 <= k < |o2| :: o2[k] < |items|
    ensures multiset(Pick(items, o1)) == multiset(Pick(items, o2))
    decreases |o1|
  {
    SameBounds(o1, o2, |items|);
    if |o1| == 0 {
      assert |o2| == |multiset(o2)| == 0;
    } else {
      var i := |o1| - 1;
      var last := o1[i];
      assert last in multiset(o2);
      var j :| 0 <= j < |o2| && o2[j] == last;
      RemoveAt(o1, i);
      RemoveAt(o2, j);
      var init, rest := o1[..i] + o1[i + 1..], o2[..j] + o2[j + 1..];
      SameBounds(o1, init, |items|);
      PickRespectsMultiset(items, init, rest);
      PickRemove(items, o1, i);
      PickRemove(items, o2, j);
    }
  }

  /** A bound on every index carries over to any order holding no other
      indices. */
  lemma SameBounds(o1: seq<nat>, o2: seq<nat>, n: nat)
    requires forall k | 0 <= k < |o1| :: o1[k] < n
    requires multiset(o2) <= multiset(o1)
    ensures forall k | 0 <= k < |o2| :: o2[k] < n
  {
    forall k | 0 <= k < |o2| ensures o2[k] < n {
      assert o2[k] in multiset(o1);
    }
  }

  /** Batches gathered in any permuted order hold, as a multiset, exactly the
      elements of all batches. */
  lemma GatherPermuted<T>(bs: seq<seq<T>>, order: seq<nat>)
    requires Perm(order, |bs|)
    ensures forall k | 0 <= k < |order| :: order[k] < |bs|
    ensures multiset(Concat(Pick(bs, order))) == multiset(Concat(bs))
  {
    PermBounds(order, |bs|);
    PickRespectsMultiset(bs, order, Range(|bs|));
    assert Pick(bs, Range(|bs|)) == bs;
    ConcatRespectsMultiset(Pick(bs, order), bs);
  }

  /** Gathering in the identity order is plain concatenation. */
  lemma GatherInOrder<T>(bs: seq<seq<T>>)
    ensures Perm(Range(|bs|), |bs|)
    ensures Pick(bs, Range(|bs|)) == bs
  {
  }

  /** Appending to one batch adds exactly the appended elements to the
      multiset of all batches. */
  lemma ConcatUpdateAppend<T>(bs: seq<seq<T>>, w: nat, y: seq<T>)
    requires w < |bs|
    ensures multiset(Concat(bs[w := bs[w] + y])) == multiset(Concat(bs)) + multiset(y)
  {
    var cs := bs[w := bs[w] + y];
    assert bs == bs[..w] + [bs[w]] + bs[w + 1..];
    assert cs == bs[..w] + [bs[w] + y] + bs[w + 1..];
    ConcatAppend(bs[..w] + [bs[w]], bs[w + 1..]);
    ConcatAppend(bs[..w], [bs[w]]);
    ConcatAppend(bs[..w] + [bs[w] + y], bs[w + 1..]);
    ConcatAppend(bs[..w], [bs[w] + y]);
    assert Concat([bs[w]]) == bs[w] by { assert [bs[w]][..0] == []; }
    assert Concat([bs[w] + y]) == bs[w] + y by { assert [bs[w] + y][..0] == []; }
  }

  /** `xs` holds no value twice. */
  predicate NoDup<T(==)>(xs: seq<T>)
  {
    forall i, j | 0 <= i < j < |xs| :: xs[i] != xs[j]
  }

  /** A duplicate-free sequence has as many elements as its set of elements. */
  lemma {:induction false} NoDupCard<T>(xs: seq<T>)
    requires NoDup(xs)
    ensures |set x | x in xs| == |xs|
    decreases |xs|
  {
    if |xs| > 0 {
      var init := xs[..|xs| - 1];
      var last := xs[|xs| - 1];
      NoDupCard(init);
      assert (set x | x in xs) == (set x | x in init) + {last} by {
        forall x | x in xs ensures x in init || x == last {
          var i :| 0 <= i < |xs| && xs[i] == x;
          if i < |xs| - 1 { assert init[i] == x; }
        }
      }
      assert last !in init by {
        forall i | 0 <= i < |init| ensures init[i] != last {
          assert init[i] == xs[i];
        }
      }
    }
  }

  /** A duplicate-free sequence holds each of its elements exactly once. */
  lemma {:induction false} NoDupOnce<T>(xs: seq<T>)
    requires NoDup(xs)
    ensures forall v :: multiset(xs)[v] == if v in xs then 1 else 0
    decreases |xs|
  {
    if |xs| > 0 {
      var init := xs[..|xs| - 1];
      var last := xs[|xs| - 1];
      assert xs == init + [last];
      NoDupOnce(init);
      assert last !in init by {
        forall i | 0 <= i < |init| ensures init[i] != last {
          assert init[i] == xs[i];
        }
      }
    }
  }

  /** Two duplicate-free sequences with the same elements are permutations
      of each other. */
  lemma SameElementsPermuted<T>(a: seq<T>, b: seq<T>)
    requires NoDup(a) && NoDup(b)
    requires forall v :: v in a <==> v in b
    ensures multiset(a) == multiset(b)
  {
    NoDupOnce(a);
    NoDupOnce(b);
    assert forall v :: multiset(a)[v] == multiset(b)[v];
  }

  /** A sequence has at most as many distinct elements as entries, and
      exactly as many only when it holds no value twice. */
  lemma {:induction false} DistinctCard<T>(xs: seq<T>)
    ensures |set x | x in xs| <= |xs|
    ensures |set x | x in xs| == |xs| ==> NoDup(xs)
    decreases |xs|
  {
    if |xs| > 0 {
      var init := xs[..|xs| - 1];
      var last := xs[|xs| - 1];
      DistinctCard(init);
      assert (set x | x in xs) == (set x | x in init) + {last} by {
        forall x | x in xs ensures x in init || x == last {
          var i :| 0 <= i < |xs| && xs[i] == x;
          if i < |xs| - 1 { assert init[i] == x; }
        }
      }
      if |set x | x in xs| == |xs| {
        assert last !in init;
        forall i, j | 0 <= i < j < |xs| ensures xs[i] != xs[j] {
          if j < |xs| - 1 {
            assert init[i] == xs[i] && init[j] == xs[j];
          } else {
            assert init[i] == xs[i];
          }
        }
      }
    }
  }

  /** One block is no longer than all blocks laid end to end. */
  lemma {:induction false} ConcatCountsBlock<T>(bs: seq<seq<T>>, i: nat)
    requires i < |bs|
    ensures |bs[i]| <= |Concat(bs)|
    decreases |bs|
  {
    if i < |bs| - 1 {
      ConcatCountsBlock(bs[..|bs| - 1], i);
      assert bs[..|bs| - 1][i] == bs[i];
    }
  }

  /** The position of cell `j` of block `p` when blocks of width `a` are
      laid end to end. */
  function Row(p: nat, a: nat, j: nat): nat
  {
    p * a + j
  }

  lemma MulStep(p: nat, q: nat, a: nat, j: nat)
    requires p < q && j < a
    ensures Row(p, a, j) < q * a
  {
    assert (p + 1) * a <= q * a;
  }

  /** Blocks of equal width `a` laid end to end: position `Row(p, a, j)` holds cell `j`
      of block `p`. */
  lemma {:induction false} BlockIndex<T>(bs: seq<seq<T>>, a: nat)
    requires forall p | 0 <= p < |bs| :: |bs[p]| == a
    ensures |Concat(bs)| == |bs| * a
    ensures forall p, j | 0 <= p < |bs| && 0 <= j < a ::
      Row(p, a, j) < |Concat(bs)| && Concat(bs)[Row(p, a, j)] == bs[p][j]
    decreases |bs|
  {
    if |bs| > 0 {
      var n := |bs| - 1;
      var init := bs[..n];
      BlockIndex(init, a);
      assert Concat(bs) == Concat(init) + bs[n];
      forall p, j | 0 <= p < |bs| && 0 <= j < a
        ensures Row(p, a, j) < |Concat(bs)| && Concat(bs)[Row(p, a, j)] == bs[p][j]
      {
        if p < n {
          MulStep(p, n, a, j);
          assert bs[p] == init[p];
        } else {
          assert Row(p, a, j) == n * a + j;
        }
      }
    }
  }
}

=== FILE: values.dfy ===
/** Values, errors and the cancellation context shared by every component.

    Go stores cells and collection elements as `interface{}` and inspects them at
    run time; here a tagged `Value` stands in for the dynamic types the engine
    distinguishes, and its structural equality stands in for Go's `==` on
    interface values (the equality map keys use). */
module Values {

  /** A dynamically typed value.
      - `IntV`: a Go `int` (the only type the `Sum` reducer adds up).
      - `NumV`: a parsed number (the CSV loader's `float64`), kept as a real.
      - `StrV`: a Go `string`.
      - `ListV`: a `[]interface{}`, i.e. a slice of the collection's own element
        type; the flattening operations splice its members.
      - `OtherSliceV`: a slice whose element type is some other type (`[]int`, …);
        flattening passes it through whole.
      - `ArrayV`: a fixed-length Go array; flattening passes it through whole. */
  datatype Value =
    | IntV(i: int)
    | NumV(x: real)
    | StrV(s: string)
    | ListV(items: seq<Value>)
    | OtherSliceV(elems: seq<Value>)
    | ArrayV(cells: seq<Value>)

  /** Whether Go can use the value as a map key: slices are not comparable and
      make a map assignment panic; an array is comparable when its cells are. */
  predicate Hashable(v: Value)
  {
    match v
    case ListV(_) => false
    case OtherSliceV(_) => false
    case ArrayV(cells) => forall i | 0 <= i < |cells| :: Hashable(cells[i])
    case _ => true
  }

  predicate AllHashable(s: seq<Value>)
  {
    forall i | 0 <= i < |s| :: Hashable(s[i])
  }

  /** The sentinel errors of the dataframe package, the two errors of the CSV
      loader, and the context's cancellation error. A wrapped error (Go's
      `fmt.Errorf("…: %w", err)`) is identified with the sentinel it wraps, as
      `errors.Is` does. */
  datatype Error =
    | ColumnNotFound
    | InvalidColumnName
    | EmptyDataFrame
    | InvalidData
    | Canceled
    | MissingDataRows
    | InconsistentColumns

  datatype Result<T> = Ok(value: T) | Err(error: Error)

  datatype Option<T> = None | Some(value: T)

  /** A cancellable context as one call observes it: whether it is already done
      when the call checks it on entry, and whether a cancellation that arrives
      while the call is working is seen at one of its checkpoints. A call that
      has no work to do passes no checkpoint after the entry check. How a
      call then ends is the call's own business: most fail, but the code's
      `Filter` and `FlatMap` may also succeed with a partial result (see
      `Rdd.QueueRun`). */
  datatype Context = Context(doneAtEntry: bool, cancelledMidway: bool)

  /** The characters Go's `unicode.IsSpace` accepts, which `strings.TrimSpace`
      strips from both ends. */
  predicate IsSpace(c: char)
  {
    c == '\t' || c == '\n' || c == '\U{000B}' || c == '\U{000C}' || c == '\r' || c == ' '
    || c == '\U{0085}' || c == '\U{00A0}' || c == '\U{1680}'
    || ('\U{2000}' <= c <= '\U{200A}')
    || c == '\U{2028}' || c == '\U{2029}' || c == '\U{202F}' || c == '\U{205F}' || c == '\U{3000}'
  }

  /** `strings.TrimSpace(s) == ""`: the string holds nothing but white space. */
  predicate IsBlank(s: string)
  {
    forall i | 0 <= i < |s| :: IsSpace(s[i])
  }

  /** `strings.TrimSpace`: drop leading and trailing white space. */
  function TrimSpace(s: string): (t: string)
    ensures |t| <= |s|
    ensures t == [] || (!IsSpace(t[0]) && !IsSpace(t[|t| - 1]))
  {
    if |s| == 0 then s
    else if IsSpace(s[0]) then TrimSpace(s[1..])
    else if IsSpace(s[|s| - 1]) then TrimSpace(s[..|s| - 1])
    else s
  }

  /** The blank test the source writes as `strings.TrimSpace(s) == ""` is the
      all-white-space predicate used throughout the model. */
  lemma {:induction false} TrimSpaceEmptyIffBlank(s: string)
    ensures TrimSpace(s) == [] <==> IsBlank(s)
    decreases |s|
  {
    if |s| == 0 {
    } else if IsSpace(s[0]) {
      TrimSpaceEmptyIffBlank(s[1..]);
      assert IsBlank(s) <==> IsBlank(s[1..]) by {
        if IsBlank(s[1..]) {
          forall i | 0 <= i < |s| ensures IsSpace(s[i]) {
            if i > 0 { assert s[i] == s[1..][i - 1]; }
          }
        }
      }
    } else if IsSpace(s[|s| - 1]) {
      // s[0] is not white space and, since s[|s| - 1] is, lies in the prefix
      TrimSpaceEmptyIffBlank(s[..|s| - 1]);
      assert !IsBlank(s[..|s| - 1]) by { assert s[..|s| - 1][0] == s[0]; }
      assert !IsBlank(s) by { assert !IsSpace(s[0]); }
    } else {
      assert !IsBlank(s) by { assert !IsSpace(s[0]); }
    }
  }

  /** Go's `int` is 64 bits wide: additions wrap modulo 2^64 into
      [-2^63, 2^63). */
  const TwoTo63: int := 0x8000_0000_0000_0000
  const TwoTo64: int := 0x1_0000_0000_0000_0000

  predicate InInt64(x: int)
  {
    -TwoTo63 <= x < TwoTo63
  }

  function Wrap64(x: int): (r: int)
    ensures InInt64(r)
    ensures InInt64(x) ==> r == x
    ensures (r - x) % TwoTo64 == 0
  {
    (x + TwoTo63) % TwoTo64 - TwoTo63
  }

  /** Wrapping after every addition is the same as wrapping once at the end. */
  lemma WrapAddAbsorbs(a: int, b: int)
    ensures Wrap64(Wrap64(a) + b) == Wrap64(a + b)
  {
    var m := TwoTo64;
    var q := (a + TwoTo63) / m;
    assert Wrap64(a) + b + TwoTo63 == (a + b + TwoTo63) - q * m;
    ModShift(a + b + TwoTo63, q);
  }

  lemma ModShift(n: int, q: int)
    ensures (n - q * TwoTo64) % TwoTo64 == n % TwoTo64
  {
    var m := TwoTo64;
    var r := n % m;
    var d := n / m;
    assert n == d * m + r;
    assert n - q * m == (d - q) * m + r;
    assert 0 <= r < m;
  }
}
